=== FILE: README.md ===
# sinatra-cacher, modelled in Dafny

Sinatra::Cacher caches whole Sinatra routes, and values computed inside
routes, as files under a cache root. The model covers these pieces:

- **Entry format.** Each entry is one file: a decimal timestamp line, then a
  content-type line (empty for none), then the payload. A value that is not
  a String is stored through Marshal under the content-type line `marshal`.
- **Store.** `cache_get_tag`, `cache_put_tag` and `cache_clear` over an
  abstract file system, a map from path to file contents.
- **Tags.** `cache_guess_tag` resolves a route's tag against the request's
  path. `:auto` and `true` derive the tag from `path_info`.
- **Route protocol.** A request to a route registered with `cache_get`
  goes through three phases:
  1. The pre-phase serves a stored entry and skips the block.
  2. The block runs inside `catch(:cache_stop)`. `cache_tag` either escapes
     with a stored entry or records the tag in the `cache_last_tag` setting.
  3. The post-phase recognises the escape, or else writes the block's value
     under the registration tag or the recorded one.
- **cache_block.** Memoises a value under `fragments/<tag>`.

The model has these modules:

- `RubyText` models the Ruby library behaviour the file format depends on:
  `IO#puts`, `IO#gets`, `String#chomp`, `String#to_i`, `Integer#to_s` and
  `File.join`.
- `EntryFormat` is the entry layout.
- `Store` holds the settings, `cache_enabled?` and the three store operations.
- `Tags` is tag resolution.
- `Protocol` is the request protocol.
- `Blocks` is `cache_block`.
- `Ruby` holds Ruby values, truthiness, Marshal and the exceptions raised.
- `Results` holds `Option` and `Result`.

Several things the Ruby code gets from outside are parameters in the model:

- Marshal is a pair of functions in `Config`. Its round trip is a hypothesis
  (`RoundTrips`) in the lemmas that need it.
- `Time.now.to_i` is the `now` argument.
- A route's block is a `Handler`: a sequence of steps the cacher can observe,
  then the value it returns. The steps are `cache_tag`, `cache_block` (with
  the value its own block yields), `cache_clear`, `content_type`, a side
  effect that does not touch the cache, and an exception. `Fail` stands for
  any exit that throws past `catch(:cache_stop)`, Sinatra's `halt`, `pass`
  and `redirect` included: like an exception, it skips the post-phase and
  leaves `cache_last_tag` set, but the error reply the model gives is
  accurate only for exceptions. The cache files
  are threaded through the steps: a later `cache_tag`, and the post-phase,
  read what an earlier `cache_block` or `cache_clear` wrote.
- The file system is a `map<string, string>`.

Some facts about the code that the model follows:

- Route entries sit directly under the cache root. `cache_block` keeps its
  entries under `fragments/`.
- A put always replaces the file; there is no overwrite flag.
- A put writes the file in place, with no temporary file and rename.
- A registration tag takes precedence over a tag recorded by `cache_tag`,
  because of `tag ||= settings.cache_last_tag`.
- `cache_block` reads stored entries even when caching is disabled. Only
  its write is gated, by `cache_put_tag`.

Two defects of the route protocol are stated, and proved, in both forms.
`ServeAsWritten` models the code as written; `Serve` is the corrected
protocol and the one the rest of the model uses (see "## Findings").

## Model

| member | source | states |
|---|---|---|
| RubyText.IntToS | lib/sinatra/cacher.rb:55 | `Integer#to_s` of the time `f.puts` writes: a non-empty line starting with '-' or a digit and holding no newline or carriage return. `ToIOfIntToS` reads it back. |
| RubyText.Puts | lib/sinatra/cacher.rb:55-56 | `IO#puts` writes the string followed by one newline, adding none when it already ends in one. `GetsAfterPuts` reads it back. |
| RubyText.Gets | lib/sinatra/cacher.rb:31 | `IO#gets` is nil exactly at end of file; otherwise it splits off a non-empty first line, with no newline before its end, and the rest of the file; that line ends in a newline unless it is the last. |
| RubyText.Chomp | lib/sinatra/cacher.rb:31 | `String#chomp` returns a prefix of the line, strictly shorter when the line ends in a newline, and the line itself when it ends in neither '\n' nor '\r'. |
| RubyText.ToI | lib/sinatra/cacher.rb:31 | On a line made only of digits, `to_i` gives the line's decimal value. On a line of white space alone it gives 0. |
| RubyText.ToIDecimalPrefix | lib/sinatra/cacher.rb:31 | `to_i` skips a leading "0d" or "0D" radix prefix: "0d12" reads as 12. |
| RubyText.ToISignedDecimalPrefix | lib/sinatra/cacher.rb:31 | The "0d" prefix may follow a sign: "-0D7" reads as -7 and "+0d7" as 7. |
| RubyText.ToIOfIntToS | lib/sinatra/cacher.rb:31 | `to_i` on the chomped first line reads back the timestamp that `f.puts(time)` wrote. This holds for every integer, negative ones included. |
| RubyText.GetsAfterPuts | lib/sinatra/cacher.rb:30-32 | For a string with no newline, `gets` after `puts` returns exactly that line plus its newline and leaves the rest of the file untouched. |
| RubyText.FileJoin | lib/sinatra/cacher.rb:28 | `File.join(cache_path, tag)` ends with the tag verbatim and starts with the cache path less its trailing '/' run. |
| RubyText.FileJoinEndsWithSlash | lib/sinatra/cacher.rb:63-65 | The joined clear path ends in '/' exactly when the tag is empty or ends in '/'. This is the test that chooses between the `*` glob and the `.html` file. |
| RubyText.FileJoinLeadingSlash | lib/sinatra/cacher.rb:28 | Under a root without a trailing '/', the tags "x" and "/x" name the same file. |
| RubyText.FileJoinInjective | lib/sinatra/cacher.rb:51 | Two tags that agree on a leading '/' and join to the same path are the same tag. |
| EntryFormat.Encode | lib/sinatra/cacher.rb:54-58 | The written file starts with the decimal timestamp and a newline, and ends with the payload bytes verbatim. `ParseEncode` reads it back. |
| EntryFormat.Parse | lib/sinatra/cacher.rb:30-32 | After the two header lines, `f.read` returns the rest of the file: the payload is the file's tail and is strictly shorter than the file. The chomped content-type line holds no newline. |
| EntryFormat.ParseEncode | lib/sinatra/cacher.rb:54-58 | Reading back the file that puts(time), puts(content_type) and write(content) produced gives the same time, the same content-type line and the same payload bytes. The content type must be a single line that does not end in '\r'. |
| EntryFormat.ParseSucceedsIff | lib/sinatra/cacher.rb:30-32 | The two header reads succeed exactly when a newline occurs before the file's last character. Otherwise `chomp` is called on nil and raises. |
| Tags.GuessTag | lib/sinatra/cacher.rb:147-152 | nil gives no tag, and any other explicit tag is returned unchanged. An auto tag is path_info, with "index" joined on when the path is empty or ends in '/'. An auto tag never ends in '/'. |
| Tags.GuessTagIdempotent | lib/sinatra/cacher.rb:99-101 | Resolving an already resolved tag again, against any later path, gives the same tag. So the post-phase's second cache_guess_tag is harmless. |
| Tags.AutoTagInjective | lib/sinatra/cacher.rb:147-152 | Two paths share an auto tag only when they differ by a trailing "index" segment, or are the root written two ways. |
| Store.Defaults | lib/sinatra/cacher.rb:7-12 | The settings `registered` sets: caching off, enabled in production, etags on, root tmp/cache. It carries no contract of its own; `DefaultsEnabledOnlyInProduction` states what it means for `cache_enabled?`. |
| Store.Enabled | lib/sinatra/cacher.rb:15-17 | `cache_enabled?`: `cache_enabled`, or the environment listed in `cache_enabled_in`. It carries no contract of its own; `EnabledWhen` and `EnabledMonotone` state its meaning. |
| Store.EnabledWhen | lib/sinatra/cacher.rb:15-17 | `cache_enabled` turns caching on in every environment. Without it, caching is on exactly when some element of `cache_enabled_in` is the current environment. |
| Store.EnabledMonotone | lib/sinatra/cacher.rb:16 | Listing more environments in `cache_enabled_in` never turns caching off. |
| Store.DefaultsEnabledOnlyInProduction | lib/sinatra/cacher.rb:7-17 | With the registered settings, cache_enabled? holds exactly in the production environment. |
| Store.Decode | lib/sinatra/cacher.rb:33-39 | A decoded entry never carries the content type "" or "marshal". A content type is reported only for String content. A malformed file is reported as malformed. |
| Store.Get | lib/sinatra/cacher.rb:26-40 | nil tag: miss. Otherwise the result is a miss exactly when the entry file is absent. |
| Store.ContentTypeLine | lib/sinatra/cacher.rb:56 | `f.puts(content_type)` writes the empty line for nil. A storable content type gives a single safe line that is not the marshal sentinel; `DecodeStringEntry` reads it back, "" as nil. |
| Store.Put | lib/sinatra/cacher.rb:42-60 | Disabled: no write and a nil time. It raises exactly for a tag ending in '/' or a non-String with a content type, with the matching error. On success it returns the time and adds or replaces exactly the tag's file, leaving every other file unchanged. |
| Store.DecodeStringEntry | lib/sinatra/cacher.rb:30-39 | A String entry reads back as that String, at its time, with its content type ("" read back as nil). |
| Store.DecodeMarshalEntry | lib/sinatra/cacher.rb:33-36 | An entry under the `marshal` line reads back as the dumped value, given Marshal's round trip. |
| Store.PutThenGet | lib/sinatra/cacher.rb:26-60 | Reading a tag right after writing it gives back the content, the write time, and the content type, with "" read back as nil. Strings come back verbatim; other values come back through Marshal. |
| Store.PutKeepsOtherTags | lib/sinatra/cacher.rb:51-58 | A write changes what another tag reads only when both tags name the same file. |
| Store.EntryPath | lib/sinatra/cacher.rb:28 | The entry file of a tag, the same path `cache_put_tag` writes at line 51, lies under the cache path (less its trailing '/' run) and ends in ".html". `EntryPathInjective` gives distinct tags distinct files. |
| Store.Cleared | lib/sinatra/cacher.rb:63-66 | Which paths `cache_clear(tag)` removes: below a base ending in '/', every path at a name not starting with '.'; otherwise the `.html` path and everything below it as a directory. It carries no contract of its own; `Clear` and the lemmas after it state its consequences. |
| Store.Clear | lib/sinatra/cacher.rb:62-67 | A file survives exactly when the glob or the `.html` path does not match it (removed with its subtree), and every surviving file keeps its contents. A tag without a trailing '/' removes its entry and everything below `<entry>/`, in case that name is a directory. An empty tag or one ending in '/' removes everything under the joined prefix except names starting with '.' directly under it, which `*` does not match. |
| Store.ClearThenGetMisses | lib/sinatra/cacher.rb:62-67 | After a tag is cleared, reading that tag misses. |
| Store.ClearRemovesSubtree | lib/sinatra/cacher.rb:66 | When a plain tag's `.html` name is a directory, `rm_r` removes it whole: every tag below it misses after the clear. |
| Store.ClearPrefixThenGetMisses | lib/sinatra/cacher.rb:62-67 | After a prefix is cleared, every tag whose entry lies under that prefix at a name not starting with '.' misses. |
| Store.ClearKeepsOtherTags | lib/sinatra/cacher.rb:62-67 | A tag whose file the clear does not match reads exactly as before. |
| Store.ClearIdempotent | lib/sinatra/cacher.rb:62-67 | Clearing twice is the same as clearing once. Clearing something that matches nothing changes nothing. |
| Store.ClearEmptyTagEmptiesCache | lib/sinatra/cacher.rb:62-67 | An empty tag globs the whole cache root, so afterwards every tag misses whose entry is not a dot-file at the root. |
| Store.ClearEmptyTagKeepsDotEntries | lib/sinatra/cacher.rb:63-66 | The root glob skips dot-files: the empty tag's entry `<root>/.html`, and that of any tag starting with '.', read the same after an empty-tag clear. |
| Store.EntryPathInjective | lib/sinatra/cacher.rb:28 | Two tags that agree on a leading '/' share an entry file only when they are the same tag. |
| Store.EntryPathOfRootedTag | lib/sinatra/cacher.rb:28 | Under a root without a trailing '/', a tag starting with '/' is appended as is. |
| Store.ExplicitTagFileName | spec/cacher_spec.rb:81-87 | The explicit `:index` tag is stored at tmp/cache/index.html, for every request path. |
| Store.AutoTagFileName | spec/cacher_spec.rb:89-92 | An auto tag for a path without a trailing '/', such as /route_auto_tag, is stored at tmp/cache plus that path plus `.html`. |
| Store.AutoIndexFileName | spec/cacher_spec.rb:93-98 | An auto tag for a path with a trailing '/', such as /route_auto_tag/, is stored at `index.html` inside that directory under tmp/cache. |
| Blocks.FragmentTag | lib/sinatra/cacher.rb:156 | `"fragments/#{tag}"` starts with "fragments/" followed by the tag verbatim, and ends in '/' exactly when the tag is empty or ends in '/', the tags for which `cache_put_tag` raises. |
| Blocks.CacheBlock | lib/sinatra/cacher.rb:154-162 | No block: it raises. The block is evaluated exactly when the fragment misses. A hit returns the stored content and writes nothing. A miss returns the block's value. Disabled: nothing is written. A miss on an empty tag, or a tag ending in '/', raises. |
| Blocks.CacheBlockStoresOnMiss | lib/sinatra/cacher.rb:157-160 | With caching on, a missed fragment is written, and reading it back gives the block's value at the write time, with no content type. |
| Blocks.CacheBlockMemoises | spec/cacher_spec.rb:100-124 | A miss evaluates the block and stores its value. The next call with the same tag returns that value, of any type, without evaluating its own block. |
| Protocol.CacheTag | lib/sinatra/cacher.rb:139-145 | Disabled: it does nothing. A stored entry makes it escape with that entry, and a read error propagates; in both cases cache_last_tag is untouched. On a miss it records the resolved tag. |
| Protocol.ApplyHit | lib/sinatra/cacher.rb:79-80 | The headers a stored entry sets, in the pre-phase and again at lines 92-93 after an escape: its time becomes the etag when etags are on, and its content type replaces the response's only when it has one. |
| Protocol.Exec | lib/sinatra/cacher.rb:123 | A block's run only appends side effects and never changes the etag. It can escape only when caching is on. A block without cache_tag leaves cache_last_tag as it was and does not escape. A block without cache_block or cache_clear leaves the files as they were; with caching off, only cache_clear can change them. |
| Protocol.Plain | lib/sinatra/cacher.rb:137-162 | The block run without the route cacher: cache_tag returns at once (line 140), while cache_block and cache_clear still read and write the store. It never escapes and leaves cache_last_tag alone; with caching off and no cache_clear, the files are unchanged. |
| Protocol.ExecWhenDisabled | lib/sinatra/cacher.rb:139-140 | With caching off, a block runs under the cacher exactly as `Plain` runs it. |
| Protocol.ExecAppend | lib/sinatra/cacher.rb:123 | Running two pieces of a block in sequence is running their concatenation. The second piece runs only when the first runs to its end. |
| Protocol.ExecOfEffects | lib/sinatra/cacher.rb:123 | A block made only of side effects runs to its end and performs them all, in order. |
| Protocol.RoutePre | lib/sinatra/cacher.rb:71-85 | It fails exactly when reading the resolved tag fails. It short-circuits exactly on a stored entry whose content is truthy, and then applies the stored time as etag and the stored content type. |
| Protocol.RoutePostAsWritten | lib/sinatra/cacher.rb:87-107 | An escape returns the entry with its headers and writes nothing. A normal return writes at most the registration tag's entry, or else the recorded tag's: every other file keeps its contents and no other file appears. A successful write clears cache_last_tag and returns the block's value. A failed write changes nothing. |
| Protocol.PostStoresResult | lib/sinatra/cacher.rb:98-106 | On a normal return, the value is stored under the registration tag, or else under the recorded tag, and reads back. The etag becomes the write time, and the value is returned unchanged. |
| Protocol.PostWithoutTagWritesNothing | lib/sinatra/cacher.rb:98-106 | With neither a registration tag nor a recorded one, the post-phase writes nothing. |
| Protocol.Uncached | lib/sinatra/cacher.rb:110-113 | A route registered without a tag while caching is off keeps its tag and cache_last_tag, and returns its block's value. The files change only through the block's own cache_clear calls. |
| Protocol.AfterMissAsWritten | lib/sinatra/cacher.rb:123-125 | After a pre-phase miss, every file the block's steps left keeps its contents except the post-phase's target entry, and a block without cache_tag adds no file but that entry. With no cache_block or cache_clear either, the same holds relative to the files before the request. |
| Protocol.ServeAsWritten | lib/sinatra/cacher.rb:109-127 | With caching off, a request is the uncached route. |
| Protocol.AsWrittenReplacesOnlyAuto | lib/sinatra/cacher.rb:120 | As written, only an auto registration tag is ever replaced, and then by the tag the request's path resolved to. |
| Protocol.Serve | lib/sinatra/cacher.rb:118-127 | Corrected protocol: the route keeps its registration tag, and cache_last_tag is clear after every enabled request. The reply and the files are those of the code as written. |
| Protocol.ServeAfterMiss | lib/sinatra/cacher.rb:120-126 | After a miss, when the block runs to its end, the reply carries the block's side effects and the post-phase's body and headers. |
| Protocol.DisabledIsTransparent | lib/sinatra/cacher.rb:110-113 | For a route without a tag, with caching off at registration and at every request, the cacher is invisible: the files are those the block's own steps leave, cache_last_tag is untouched, and the side effects and headers are those of running the block. Without cache_clear in the block, the world is unchanged. |
| Protocol.DisabledBlockStillClears | lib/sinatra/cacher.rb:62-67 | `cache_clear` is not gated by `cache_enabled?`: with caching off, a block that clears a tag still removes that tag's files. |
| Protocol.PreHitSkipsHandler | lib/sinatra/cacher.rb:76-82 | A truthy stored entry for the route's tag answers the request. The block does not run, nothing is written, and the etag and content type come from the entry. |
| Protocol.EscapeAfter | lib/sinatra/cacher.rb:142-143 | Once cache_tag hits on the files the earlier steps left, the steps after it do not matter. |
| Protocol.EscapeSkipsRest | lib/sinatra/cacher.rb:89-95 | When cache_tag hits, no later step runs and the post-phase writes nothing: the files are those the steps before it left, and unchanged when those steps do not write the store. The reply is the stored content with its time and content type applied, plus the side effects performed before it. |
| Protocol.RepeatRequestHits | spec/cacher_spec.rb:32-51 | On a tagged route, the second request for a path returns the first request's body, etag and content type. The block does not run and the second request changes nothing. |
| Protocol.CacheTagFirstRequest | lib/sinatra/cacher.rb:139-145 | When a route with no tag calls cache_tag first and misses, the rest of the block runs, its page is returned, and the page is stored under the recorded tag. |
| Protocol.CacheTagEscapesAtOnce | lib/sinatra/cacher.rb:142-143 | When a route with no tag calls cache_tag first and the entry is stored, the stored content is returned before any other step runs, and the world is unchanged. |
| Protocol.CacheTagRouteHits | spec/cacher_spec.rb:53-70 | A route whose block starts with cache_tag stores its page under that tag. The next request for the path escapes with the stored page and writes nothing. |
| Protocol.UntaggedRouteWritesNothing | spec/cacher_spec.rb:24-30 | A route with no tag, whose block never calls cache_tag, gets no write from the cacher: the files are exactly those the block's own cache_block and cache_clear calls leave, and unchanged when it makes none. cache_last_tag ends clear. |
| Protocol.ExecSingleCacheBlock | lib/sinatra/cacher.rb:154-161 | A block of one successful cache_block call runs to its end with the files cache_block left. |
| Protocol.BlockFragmentPersists | lib/sinatra/cacher.rb:154-161 | A fragment a route's block stores on a miss outlives the request: afterwards it reads back as the block's value, at the request's time. |
| Protocol.UntaggedEscapeAnswers | lib/sinatra/cacher.rb:90-94 | On a route with no tag, a block that escapes answers the request with the escaped entry's content. |
| Protocol.BlockThenTagEscapes | lib/sinatra/cacher.rb:142-143 | Inside one block, cache_tag on the fragment cache_block has just stored escapes with that fragment. |
| Protocol.CacheTagSeesBlockWrite | lib/sinatra/cacher.rb:142-143 | A cache_tag after a cache_block in the same block sees the write: tagging the fragment just stored answers the request with its value. |
| Protocol.AsWrittenPreHit | lib/sinatra/cacher.rb:120-121 | As written, a pre-phase hit gives the stored reply and replaces the registration tag with the resolved one. |
| Protocol.ServeWritesOnlyItsTag | lib/sinatra/cacher.rb:98-104 | For a block that never calls cache_tag: with no tag the files are those the block left. With a tag, a pre-phase hit or a failed read changes nothing; after a miss, every file the block left keeps its contents except the resolved tag's entry, and no other file appears. Without store writes in the block, the same holds relative to the files before the request. |
| Protocol.MissRendersAndStores | lib/sinatra/cacher.rb:98-106 | After a miss on a tag, a block that renders a page runs to its end. Its page is written under that tag, cache_last_tag stays clear, and the etag is the write time when etags are on. |
| Protocol.FirstRequestStores | lib/sinatra/cacher.rb:118-127 | As written, a miss on a tagged route whose block renders a page runs the block, stores the page under the resolved tag at the request's time, and makes that tag the route's tag. |
| Protocol.AutoTagSticksToFirstPath | lib/sinatra/cacher.rb:120 | As written, after its first request an auto route answers a request for any other path with the first path's page, without running the block. |
| Protocol.AutoTagFollowsEachPath | lib/sinatra/cacher.rb:120 | Corrected: the route stays auto. When both paths start with '/' and their auto tags differ, the second request misses, runs the block and returns its own page. |
| Protocol.LastTagLeaksToNextRequest | lib/sinatra/cacher.rb:105 | As written, a block that records one tag and then escapes on another leaves cache_last_tag set. The next untagged request then stores its page under the leaked tag. |
| Protocol.LastTagClearedBeforeNextRequest | lib/sinatra/cacher.rb:105 | Corrected: whatever the previous request did, an untagged route without cache_tag gets no write from the cacher. Its files are those its block's own cache_block and cache_clear calls leave, and the world is unchanged when it makes none. |

## Left out

- `cache_get` registers a HEAD route as well, and `cache_route` calls
  Sinatra's `route` and `generate_method` (lines 19-24, 115-116, 129-131).
  These are routing plumbing with no caching logic. The model takes a
  route as its tag and its block.
- 304 answers to `If-None-Match` are left out. Sinatra's `etag` helper
  produces them, not the cacher. The model records the etag value the
  cacher sets.
- Sinatra's `content_type` helper adds a charset parameter. The model keeps
  the string the block passes.
- `cache_fragment` (lines 164-173) is left out. It depends on
  sinatra-outputbuffer's `capture_html` and `concat_content`, which are not
  part of this model.
- File-system details are not modelled: directory creation (`mkdir_p`),
  permissions, concurrent writers, glob metacharacters inside tags, and
  "a//b" naming the same file as "a/b". Paths are compared as strings.
- The Marshal format is left out. It appears only as a pair of functions
  with an assumed round trip.
- RubyText.ToI: `String#to_i` ignoring underscores between digits, and
  squeezing leading zeros across them, is left out. The timestamps
  `Integer#to_s` writes never contain underscores. The "0d" radix prefix is
  modelled.
- `Time.now` is a parameter, and the model does not order request times.
- Protocol.Exec and Protocol.RoutePostAsWritten: cache_route_post marks a cache
  hit by the block's return value being an Array whose first element is
  `:cache_hit`. A block that returns such an array itself is mistaken for
  a hit. The model keeps the two apart, so it does not reproduce that
  confusion.
- Protocol.Uncached: while caching is off, `cache_route` hands the whole
  options hash to Sinatra's `route` (line 111), before the `opts.delete(:tag)`
  at line 115 can run. Sinatra treats every such option as a route
  condition and calls a method of that name, so a route registered with
  `:tag` raises NoMethodError at registration unless the app defines a
  `tag` condition. Sinatra is not part of this model: `Protocol.Uncached`
  and `Protocol.DisabledIsTransparent` describe routes registered without
  a tag, and the model serves a tagged route registered while caching is
  off as if it had none.
- Protocol.DisabledIsTransparent, Protocol.ServeAsWritten and
  Protocol.Serve: one `Config` stands both for the settings when the route
  is registered (line 110) and for those at each request (lines 43 and
  140), so the model assumes `cache_enabled?` does not change after
  registration. In the code, a route registered with caching on and
  requested with it off still serves stored entries, because
  `cache_get_tag` does not check the setting, while `cache_tag` and
  `cache_put_tag` do nothing. A route registered with caching off and
  requested with it on runs `cache_tag` outside any `catch(:cache_stop)`:
  a hit throws uncaught, and a miss leaves `cache_last_tag` set.
- Store.PutThenGet: content types that contain a newline or end in '\r'
  do not read back, and neither does a String stored with the content type
  "marshal", which is read through `Marshal.load`. The lemma requires a
  storable content type. `EntryFormat.ParseEncode` states the format-level
  condition.
- Protocol.Exec: the value `cache_block` returns is not fed back into the
  block. The block's later steps and its result do not depend on it, and a
  hit on a stored fragment returns the stored value only to the model's
  lemmas about `Blocks.CacheBlock`.
- Protocol.Exec: a block's `cache_block` writes with the request's `now`,
  so every write in one request carries the same time.
- A block's direct calls of `settings.cache_put_tag` or
  `settings.cache_get_tag` are not steps of the model. The helpers for
  them are commented out (lines 135-136); only `cache_clear`,
  `cache_tag` and `cache_block` are.
- Request concurrency is left out. `cache_last_tag` is process-wide
  and would be shared between threads; the model runs requests one after
  another.

## Findings

| source | as written | input that shows it | evidently intended | confidence | as-written member | corrected member |
|---|---|---|---|---|---|---|
| lib/sinatra/cacher.rb:120 | `tag, cache_content = cache_route_pre(tag, context)` assigns the registration tag captured by the Proc, so after the first request an `:auto` route's tag is that request's path. | An `:auto` route is requested at "/a" and then at "/b". The second request is answered with the page stored for "/a", and the block does not run. | Each request resolves the registration tag against its own path. | not executed | Protocol.ServeAsWritten, Protocol.AutoTagSticksToFirstPath | Protocol.Serve, Protocol.AutoTagFollowsEachPath |
| lib/sinatra/cacher.rb:105 | `settings.cache_last_tag = nil` runs only when the block returns normally and the write succeeds. An escape from a later cache_tag, a raised exception or a failed write leaves it set. | A route with no tag runs cache_tag "a" (a miss), then cache_tag "b" (a hit), and escapes. The next request, on another route with no tag, stores its page under "a". | cache_last_tag holds a tag only during the request that recorded it. | not executed | Protocol.RoutePostAsWritten, Protocol.LastTagLeaksToNextRequest | Protocol.Serve, Protocol.LastTagClearedBeforeNextRequest |

=== FILE: blocks.dfy ===
/** Helpers#cache_block: memoising a value computed inside a route under
    `fragments/<tag>`, independently of whole-route caching. */
module Blocks {
  import opened Results
  import opened RubyText
  import opened Ruby
  import opened Store

  /** The value cache_block returns, the files afterwards, and whether the
      block was evaluated. */
  datatype BlockResult = BlockResult(value: Value, files: Files, evaluated: bool)

  /** `"fragments/#{tag}"` */
  function FragmentTag(tag: string): (t: string)
    ensures StartsWith(t, "fragments/") && t[10..] == tag
    ensures EndsWith(t, '/') <==> tag == [] || EndsWith(tag, '/')
  {
    var t := "fragments/" + tag;
    assert tag != [] ==> t[|t| - 1] == tag[|tag| - 1];
    t
  }

  /** Helpers#cache_block, with `block` the value the block yields (`None`
      when no block is given) and `now` standing for Time.now.to_i. The read
      does not consult cache_enabled?; only the write is gated. */
  function CacheBlock(cfg: Config, files: Files, tag: string, block: Option<Value>, now: int)
    : (r: Result<BlockResult, Exception>)
    ensures block.None? ==> r == Err(NoBlockGiven)
    ensures r.Ok? ==> (r.value.evaluated <==> Get(cfg, files, Some(FragmentTag(tag))) == Ok(None))
    ensures r.Ok? && !r.value.evaluated ==>
      && r.value.files == files
      && Get(cfg, files, Some(FragmentTag(tag))).Ok?
      && Get(cfg, files, Some(FragmentTag(tag))).value.Some?
      && Get(cfg, files, Some(FragmentTag(tag))).value.value.content == r.value.value
    ensures r.Ok? && r.value.evaluated ==> r.value.value == block.value
    ensures !Enabled(cfg) && r.Ok? ==> r.value.files == files
    ensures (Enabled(cfg) && block.Some? && (tag == [] || EndsWith(tag, '/'))
             && Get(cfg, files, Some(FragmentTag(tag))) == Ok(None)) ==> r == Err(TagEndsWithSlash)
  {
    if block.None? then Err(NoBlockGiven)
    else
      var t := FragmentTag(tag);
      match Get(cfg, files, Some(t))
      case Err(e) => Err(e)
      case Ok(Some(hit)) => Ok(BlockResult(hit.content, files, false))
      case Ok(None) =>
        var v := block.value;
        match Put(cfg, files, t, v, None, now)
        case Err(e) => Err(e)
        case Ok(w) => Ok(BlockResult(v, w.files, true))
  }

  /** A miss evaluates the block and stores its value; the next call with the
      same tag returns that value, of any type, without evaluating its own
      block. */
  lemma CacheBlockMemoises(cfg: Config, files: Files, tag: string, v: Value, other: Value, now1: int, now2: int)
    requires Enabled(cfg) && (v.Str? || RoundTrips(cfg.marshal))
    requires tag != [] && !EndsWith(tag, '/')
    requires Get(cfg, files, Some(FragmentTag(tag))) == Ok(None)
    ensures CacheBlock(cfg, files, tag, Some(v), now1).Ok?
    ensures
      var first := CacheBlock(cfg, files, tag, Some(v), now1).value;
      && first.value == v
      && first.evaluated
      && CacheBlock(cfg, first.files, tag, Some(other), now2) == Ok(BlockResult(v, first.files, false))
  {
    var t := FragmentTag(tag);
    assert t[|t| - 1] == tag[|tag| - 1];
    PutThenGet(cfg, files, t, v, None, now1);
  }

  /** With caching on, a missed fragment is stored with its time: reading
      it back gives the block's value, written at `now`. */
  lemma CacheBlockStoresOnMiss(cfg: Config, files: Files, tag: string, v: Value, now: int)
    requires Enabled(cfg) && (v.Str? || RoundTrips(cfg.marshal))
    requires tag != [] && !EndsWith(tag, '/')
    requires Get(cfg, files, Some(FragmentTag(tag))) == Ok(None)
    ensures CacheBlock(cfg, files, tag, Some(v), now).Ok?
    ensures Get(cfg, CacheBlock(cfg, files, tag, Some(v), now).value.files, Some(FragmentTag(tag)))
         == Ok(Some(Hit(v, now, None)))
  {
    var t := FragmentTag(tag);
    assert t[|t| - 1] == tag[|tag| - 1];
    PutThenGet(cfg, files, t, v, None, now);
  }
}

=== FILE: entry_format.dfy ===
/** The on-disk layout of one cache entry: a decimal timestamp line, a
    content-type line (empty for none), then the payload verbatim. */
module EntryFormat {
  import opened Results
  import opened RubyText

  /** What a cache file holds once its two header lines are read. */
  datatype Record = Record(time: int, contentType: string, payload: string)

  /** The bytes cache_put_tag writes: `f.puts(time)`, `f.puts(content_type)`,
      `f.write(content)`. */
  function Encode(time: int, contentType: string, payload: string): (r: string)
    ensures StartsWith(r, IntToS(time) + "\n")
    ensures |payload| < |r| && r[|r| - |payload|..] == payload
  {
    var first := Puts(IntToS(time));
    var head := first + Puts(contentType);
    assert first == IntToS(time) + "\n";
    assert (head + payload)[..|first|] == first;
    assert (head + payload)[|head|..] == payload;
    head + payload
  }

  /** The reading half of cache_get_tag: `[f.gets.chomp.to_i, f.gets.chomp,
      f.read]`. `None` when a header line is missing, where Ruby calls
      `chomp` on nil and raises. */
  function Parse(file: string): (r: Option<Record>)
    ensures r.Some? ==> |r.value.payload| < |file| && file[|file| - |r.value.payload|..] == r.value.payload
    ensures r.Some? ==> forall i :: 0 <= i < |r.value.contentType| ==> r.value.contentType[i] != '\n'
  {
    match Gets(file)
    case None => None
    case Some((first, rest)) =>
      match Gets(rest)
      case None => None
      case Some((second, payload)) =>
        HeaderLines(file, first, rest, second, payload);
        Some(Record(ToI(Chomp(first)), Chomp(second), payload))
  }

  /** After two IO#gets calls the payload is the tail of the file and the
      chomped second line holds no newline. */
  lemma HeaderLines(file: string, first: string, rest: string, second: string, payload: string)
    requires Gets(file) == Some((first, rest)) && Gets(rest) == Some((second, payload))
    ensures |payload| < |file| && file[|file| - |payload|..] == payload
    ensures forall i :: 0 <= i < |Chomp(second)| ==> Chomp(second)[i] != '\n'
  {
    assert first + rest == file && second + payload == rest;
    assert file[|first| + |second|..] == payload;
    assert forall i :: 0 <= i < |second| - 1 ==> second[i] != '\n';
    ChompedLineHasNoNewline(second);
  }

  /** A content type that survives its own line: no newline inside and no
      carriage return at the end, which `chomp` would also strip. */
  predicate LineSafe(s: string) {
    (forall i :: 0 <= i < |s| ==> s[i] != '\n') && !EndsWith(s, '\r')
  }

  /** Reading an entry gives back the timestamp, the content-type line and the
      payload that were written, whatever bytes the payload holds. */
  lemma ParseEncode(time: int, contentType: string, payload: string)
    requires LineSafe(contentType)
    ensures Parse(Encode(time, contentType, payload)) == Some(Record(time, contentType, payload))
  {
    var t := IntToS(time);
    var rest := Puts(contentType) + payload;
    assert Encode(time, contentType, payload) == Puts(t) + rest;
    GetsAfterPuts(t, rest);
    GetsAfterPuts(contentType, payload);
    assert !EndsWith(t, '\r');
    ChompAfterNewline(t);
    ChompAfterNewline(contentType);
    ToIOfIntToS(time);
  }

  /** A file parses exactly when some newline precedes its last character,
      that is, when both header lines are present. */
  lemma ParseSucceedsIff(file: string)
    ensures Parse(file).Some? <==> exists i :: 0 <= i < |file| - 1 && file[i] == '\n'
  {
    if file != [] {
      var n := LineLength(file);
      assert Gets(file) == Some((file[..n], file[n..]));
      if exists i :: 0 <= i < |file| - 1 && file[i] == '\n' {
        var i :| 0 <= i < |file| - 1 && file[i] == '\n';
        assert n <= i + 1;
        assert file[n..] != [];
      }
      if file[n..] != [] {
        assert n < |file|;
        assert file[n - 1] == '\n';
      }
    }
  }
}

=== FILE: protocol.dfy ===
/** The request protocol of a cached route: the pre-phase (serve a stored
    entry and skip the handler), the handler body with its cache_tag escape,
    and the post-phase (recognise an escape or write the result back). */
module Protocol {
  import opened Results
  import opened RubyText
  import opened Ruby
  import opened Tags
  import opened Store
  import opened Blocks

  /** The response headers the cacher reads or sets. */
  datatype Response = Response(etag: Option<int>, contentType: Option<string>)

  const NoHeaders: Response := Response(None, None)

  /** The request as the cacher sees it; `now` stands for Time.now.to_i. */
  datatype Request = Request(pathInfo: string, now: int)

  /** One step of a route's block, as far as the cacher can observe it. */
  datatype Stmt =
    | CallCacheTag(tag: TagArg)                      // Helpers#cache_tag
    | CallCacheBlock(fragment: string, value: Value) // Helpers#cache_block, with the value its block yields
    | CallCacheClear(target: string)                 // Helpers#cache_clear
    | SetContentType(contentType: string)            // Sinatra's content_type helper
    | Effect(what: string)                           // any other observable side effect
    | Fail                                           // an exception raised by the block

  /** The steps that can change the cache files from inside a block:
      cache_block (on a miss) and cache_clear. */
  predicate WritesStore(s: Stmt) {
    s.CallCacheBlock? || s.CallCacheClear?
  }

  predicate NoStoreWrites(body: seq<Stmt>) {
    forall i :: 0 <= i < |body| ==> !WritesStore(body[i])
  }

  predicate NoClears(body: seq<Stmt>) {
    forall i :: 0 <= i < |body| ==> !body[i].CallCacheClear?
  }

  /** A route's block for one request: its steps, then the value it returns. */
  datatype Handler = Handler(body: seq<Stmt>, result: Value)

  /** How the steps of a block end: they ran to the end, `throw :cache_stop`
      carried a stored entry out of cache_tag, or an exception escaped. */
  datatype Flow = Continue | Escaped(hit: Hit) | Raised(error: Exception)

  /** What a block can change while it runs: the cache files, the
      cache_last_tag setting, the response headers, and the side effects
      performed so far. */
  datatype BodyState = BodyState(files: Files, lastTag: Option<string>, response: Response, effects: seq<string>)

  datatype Run = Run(flow: Flow, state: BodyState)

  /** `context.etag cache_time if settings.cache_generate_etags` and
      `context.content_type content_type if content_type` for a stored entry. */
  function ApplyHit(cfg: Config, response: Response, hit: Hit): (r: Response)
    ensures r.etag == (if cfg.generateEtags then Some(hit.time) else response.etag)
    ensures r.contentType == (if hit.contentType.Some? then hit.contentType else response.contentType)
  {
    Response(if cfg.generateEtags then Some(hit.time) else response.etag,
             if hit.contentType.Some? then hit.contentType else response.contentType)
  }

  /** Helpers#cache_tag: the flow it leaves the block in and the new
      cache_last_tag. */
  function CacheTag(cfg: Config, files: Files, pathInfo: string, tag: TagArg, lastTag: Option<string>)
    : (r: (Flow, Option<string>))
    ensures !Enabled(cfg) ==> r == (Continue, lastTag)
    ensures r.0.Escaped? ==> Enabled(cfg) && Get(cfg, files, GuessTag(tag, pathInfo)) == Ok(Some(r.0.hit)) && r.1 == lastTag
    ensures r.0.Raised? ==> Enabled(cfg) && Get(cfg, files, GuessTag(tag, pathInfo)) == Err(r.0.error) && r.1 == lastTag
    ensures Enabled(cfg) && r.0.Continue? ==> Get(cfg, files, GuessTag(tag, pathInfo)) == Ok(None) && r.1 == GuessTag(tag, pathInfo)
  {
    if !Enabled(cfg) then (Continue, lastTag)
    else
      var t := GuessTag(tag, pathInfo);
      match Get(cfg, files, t)
      case Err(e) => (Raised(e), lastTag)
      case Ok(Some(hit)) => (Escaped(hit), lastTag)
      case Ok(None) => (Continue, t)
  }

  /** Runs a block's steps inside `catch(:cache_stop)`. Each cache_tag reads
      the files as the earlier steps left them. */
  function Exec(cfg: Config, req: Request, body: seq<Stmt>, st: BodyState): (r: Run)
    ensures |st.effects| <= |r.state.effects| <= |st.effects| + |body|
    ensures r.state.effects[..|st.effects|] == st.effects
    ensures r.state.response.etag == st.response.etag
    ensures r.flow.Escaped? ==> Enabled(cfg)
    ensures (forall i :: 0 <= i < |body| ==> !body[i].CallCacheTag?) ==>
      r.state.lastTag == st.lastTag && !r.flow.Escaped?
    ensures NoStoreWrites(body) ==> r.state.files == st.files
    ensures !Enabled(cfg) && NoClears(body) ==> r.state.files == st.files
    decreases |body|
  {
    if body == [] then Run(Continue, st)
    else
      match body[0]
      case Effect(what) =>
        Exec(cfg, req, body[1..], st.(effects := st.effects + [what]))
      case SetContentType(ct) =>
        Exec(cfg, req, body[1..], st.(response := st.response.(contentType := Some(ct))))
      case Fail =>
        Run(Raised(HandlerRaised), st)
      case CallCacheTag(tag) =>
        var (flow, lastTag) := CacheTag(cfg, st.files, req.pathInfo, tag, st.lastTag);
        if flow.Continue? then Exec(cfg, req, body[1..], st.(lastTag := lastTag))
        else Run(flow, st)
      case CallCacheBlock(tag, v) =>
        var blk := CacheBlock(cfg, st.files, tag, Some(v), req.now);
        if blk.Err? then Run(Raised(blk.error), st)
        else Exec(cfg, req, body[1..], st.(files := blk.value.files))
      case CallCacheClear(tag) =>
        Exec(cfg, req, body[1..], st.(files := Clear(cfg, st.files, tag)))
  }

  /** Reference semantics of a block run without the route cacher:
      cache_tag returns at once, while cache_block and cache_clear, which
      are helpers of their own, still read and write the store. */
  function Plain(cfg: Config, req: Request, body: seq<Stmt>, st: BodyState): (r: Run)
    ensures r.state.lastTag == st.lastTag
    ensures !r.flow.Escaped?
    ensures !Enabled(cfg) && NoClears(body) ==> r.state.files == st.files
    decreases |body|
  {
    if body == [] then Run(Continue, st)
    else
      match body[0]
      case Effect(what) => Plain(cfg, req, body[1..], st.(effects := st.effects + [what]))
      case SetContentType(ct) => Plain(cfg, req, body[1..], st.(response := st.response.(contentType := Some(ct))))
      case Fail => Run(Raised(HandlerRaised), st)
      case CallCacheTag(_) => Plain(cfg, req, body[1..], st)
      case CallCacheBlock(tag, v) =>
        var blk := CacheBlock(cfg, st.files, tag, Some(v), req.now);
        if blk.Err? then Run(Raised(blk.error), st)
        else Plain(cfg, req, body[1..], st.(files := blk.value.files))
      case CallCacheClear(tag) => Plain(cfg, req, body[1..], st.(files := Clear(cfg, st.files, tag)))
  }

  /** With caching off, running a block under the cacher is running it plain. */
  lemma {:induction false} ExecWhenDisabled(cfg: Config, req: Request, body: seq<Stmt>, st: BodyState)
    requires !Enabled(cfg)
    ensures Exec(cfg, req, body, st) == Plain(cfg, req, body, st)
    decreases |body|
  {
    if body != [] {
      match body[0]
      case Effect(what) =>
        ExecWhenDisabled(cfg, req, body[1..], st.(effects := st.effects + [what]));
      case SetContentType(ct) =>
        ExecWhenDisabled(cfg, req, body[1..], st.(response := st.response.(contentType := Some(ct))));
      case Fail =>
      case CallCacheTag(tag) =>
        ExecWhenDisabled(cfg, req, body[1..], st);
      case CallCacheBlock(tag, v) =>
        var b := CacheBlock(cfg, st.files, tag, Some(v), req.now);
        if b.Ok? {
          ExecWhenDisabled(cfg, req, body[1..], st.(files := b.value.files));
        }
      case CallCacheClear(tag) =>
        ExecWhenDisabled(cfg, req, body[1..], st.(files := Clear(cfg, st.files, tag)));
    }
  }

  /** Running two pieces of a block in sequence: the second piece runs only
      if the first ran to its end. */
  lemma {:induction false} ExecAppend(cfg: Config, req: Request, a: seq<Stmt>, b: seq<Stmt>, st: BodyState)
    ensures Exec(cfg, req, a + b, st)
         == (var r := Exec(cfg, req, a, st);
             if r.flow.Continue? then Exec(cfg, req, b, r.state) else r)
    decreases |a|
  {
    if a != [] {
      assert (a + b)[0] == a[0];
      assert (a + b)[1..] == a[1..] + b;
      match a[0]
      case Effect(what) =>
        ExecAppend(cfg, req, a[1..], b, st.(effects := st.effects + [what]));
      case SetContentType(ct) =>
        ExecAppend(cfg, req, a[1..], b, st.(response := st.response.(contentType := Some(ct))));
      case Fail =>
      case CallCacheTag(tag) =>
        var (flow, lastTag) := CacheTag(cfg, st.files, req.pathInfo, tag, st.lastTag);
        if flow.Continue? {
          ExecAppend(cfg, req, a[1..], b, st.(lastTag := lastTag));
        }
      case CallCacheBlock(tag, v) =>
        var blk := CacheBlock(cfg, st.files, tag, Some(v), req.now);
        if blk.Ok? {
          ExecAppend(cfg, req, a[1..], b, st.(files := blk.value.files));
        }
      case CallCacheClear(tag) =>
        ExecAppend(cfg, req, a[1..], b, st.(files := Clear(cfg, st.files, tag)));
    } else {
      assert a + b == b;
    }
  }

  /** The labels of a block's side effects, in order. */
  function Performed(body: seq<Stmt>): seq<string>
    decreases |body|
  {
    if body == [] then []
    else (if body[0].Effect? then [body[0].what] else []) + Performed(body[1..])
  }

  /** A block that renders a String page and does nothing else the cacher
      can observe: no cache_tag, no cache write, no content type, no
      exception. */
  predicate RendersPage(h: Handler) {
    h.result.Str? && forall i :: 0 <= i < |h.body| ==> h.body[i].Effect?
  }

  /** A block of side effects alone runs to its end and performs them all. */
  lemma {:induction false} ExecOfEffects(cfg: Config, req: Request, body: seq<Stmt>, st: BodyState)
    requires forall i :: 0 <= i < |body| ==> body[i].Effect?
    ensures Exec(cfg, req, body, st) == Run(Continue, st.(effects := st.effects + Performed(body)))
    decreases |body|
  {
    if body != [] {
      var st' := st.(effects := st.effects + [body[0].what]);
      assert body[0].Effect?;
      assert Exec(cfg, req, body, st) == Exec(cfg, req, body[1..], st');
      assert Performed(body) == [body[0].what] + Performed(body[1..]);
      assert forall i :: 0 <= i < |body[1..]| ==> body[1..][i] == body[i + 1];
      ExecOfEffects(cfg, req, body[1..], st');
      assert st'.effects + Performed(body[1..]) == st.effects + Performed(body);
    }
  }

  /** What cache_route_pre hands back: the resolved tag, the stored content
      when it short-circuits the request, and the headers it set. */
  datatype Pre = Pre(tag: Option<string>, cached: Option<Value>, response: Response)

  /** cache_route_pre. A stored entry whose content is nil or false does not
      short-circuit (`if cache_content`). */
  function RoutePre(cfg: Config, files: Files, tag: TagArg, pathInfo: string): (r: Result<Pre, Exception>)
    ensures r.Err? <==> Get(cfg, files, GuessTag(tag, pathInfo)).Err?
    ensures r.Ok? ==> r.value.tag == GuessTag(tag, pathInfo)
    ensures r.Ok? ==>
      var g := Get(cfg, files, GuessTag(tag, pathInfo)).value;
      && (r.value.cached.Some? <==> g.Some? && Truthy(g.value.content))
      && (r.value.cached.Some? ==> r.value.cached.value == g.value.content && r.value.response == ApplyHit(cfg, NoHeaders, g.value))
    ensures r.Ok? && r.value.cached.None? ==> r.value.response == NoHeaders
  {
    var t := GuessTag(tag, pathInfo);
    if t.None? then Ok(Pre(t, None, NoHeaders))
    else
      match Get(cfg, files, t)
      case Err(e) => Err(e)
      case Ok(g) =>
        if g.Some? && Truthy(g.value.content) then Ok(Pre(t, Some(g.value.content), ApplyHit(cfg, NoHeaders, g.value)))
        else Ok(Pre(t, None, NoHeaders))
  }

  /** What `catch(:cache_stop) { ... }` returns when no exception escapes:
      the block's own value, or the entry cache_tag threw. */
  datatype Caught = Normal(value: Value) | CacheHit(hit: Hit)

  /** The files, the cache_last_tag setting, the headers and the reply after
      cache_route_post. */
  datatype Post = Post(files: Files, lastTag: Option<string>, response: Response, body: Result<Value, Exception>)

  /** The entry the post-phase writes on a normal return, if any: the
      registration tag's, or failing that the one cache_tag recorded. */
  function PostTarget(cfg: Config, tag: Option<string>, lastTag: Option<string>): set<string> {
    if tag.Some? then {EntryPath(cfg.cachePath, tag.value)}
    else if lastTag.Some? then {EntryPath(cfg.cachePath, lastTag.value)}
    else {}
  }

  /** cache_route_post as written: cache_last_tag is cleared only on the
      path that returns normally after the write. */
  function RoutePostAsWritten(cfg: Config, files: Files, lastTag: Option<string>, response: Response,
                              ret: Caught, tag: Option<string>, pathInfo: string, now: int): (r: Post)
    ensures ret.CacheHit? ==>
      r == Post(files, lastTag, ApplyHit(cfg, response, ret.hit), Ok(ret.hit.content))
    ensures ret.Normal? && tag.None? && lastTag.None? ==> r == Post(files, None, response, Ok(ret.value))
    ensures ret.Normal? && r.body.Ok? ==> r.body.value == ret.value && r.lastTag == None
    ensures r.body.Err? ==> r.files == files && r.lastTag == lastTag
    ensures r.files.Keys <= files.Keys + PostTarget(cfg, tag, lastTag)
    ensures forall p :: p in files && p !in PostTarget(cfg, tag, lastTag) ==> p in r.files && r.files[p] == files[p]
  {
    match ret
    case CacheHit(hit) => Post(files, lastTag, ApplyHit(cfg, response, hit), Ok(hit.content))
    case Normal(v) =>
      var t := if tag.Some? then tag else lastTag;
      if t.None? then Post(files, None, response, Ok(v))
      else
        var resolved := GuessTag(Named(t.value), pathInfo).value;
        match Put(cfg, files, resolved, v, response.contentType, now)
        case Err(e) => Post(files, lastTag, response, Err(e))
        case Ok(w) => Post(w.files, None, if cfg.generateEtags then response.(etag := w.time) else response, Ok(v))
  }

  /** The post-phase on a normal return stores the block's value under the
      registration tag, or failing that under the tag cache_tag recorded; the
      etag becomes the write time and the value is returned unchanged. */
  lemma PostStoresResult(cfg: Config, files: Files, lastTag: Option<string>, response: Response,
                         v: Value, tag: Option<string>, pathInfo: string, now: int)
    requires Enabled(cfg) && (v.Str? || RoundTrips(cfg.marshal))
    requires tag.Some? || lastTag.Some?
    requires !EndsWith(if tag.Some? then tag.value else lastTag.value, '/')
    requires v.Str? || response.contentType.None?
    requires StorableContentType(response.contentType)
    ensures
      var t := if tag.Some? then tag.value else lastTag.value;
      var p := RoutePostAsWritten(cfg, files, lastTag, response, Normal(v), tag, pathInfo, now);
      && p.body == Ok(v)
      && p.lastTag == None
      && Get(cfg, p.files, Some(t)) == Ok(Some(Hit(v, now, ReadBack(response.contentType))))
      && p.response.etag == (if cfg.generateEtags then Some(now) else response.etag)
  {
    var t := if tag.Some? then tag.value else lastTag.value;
    PutThenGet(cfg, files, t, v, response.contentType, now);
    var w := Put(cfg, files, t, v, response.contentType, now).value;
    assert GuessTag(Named(t), pathInfo) == Some(t);
    assert RoutePostAsWritten(cfg, files, lastTag, response, Normal(v), tag, pathInfo, now)
        == Post(w.files, None, if cfg.generateEtags then response.(etag := w.time) else response, Ok(v));
  }

  /** The post-phase with neither a registration tag nor a recorded one
      writes nothing. */
  lemma PostWithoutTagWritesNothing(cfg: Config, files: Files, response: Response, v: Value, pathInfo: string, now: int)
    ensures RoutePostAsWritten(cfg, files, None, response, Normal(v), None, pathInfo, now) == Post(files, None, response, Ok(v))
  {
  }

  /** A route as registered by cache_get: its tag option and its block, which
      may depend on the request's path. */
  datatype Route = Route(tag: TagArg, handler: string -> Handler)

  /** State that outlives a request: the cache files and the process-wide
      cache_last_tag setting. */
  datatype World = World(files: Files, lastTag: Option<string>)

  datatype Reply = Reply(body: Result<Value, Exception>, response: Response, effects: seq<string>)

  /** The route's tag after the request, the world after it, and the reply. */
  datatype Served = Served(tag: TagArg, world: World, reply: Reply)

  /** A route registered while caching is off: Sinatra runs the block as
      is, so only cache_block and cache_clear can touch the store. */
  function Uncached(cfg: Config, route: Route, world: World, req: Request): (s: Served)
    ensures s.tag == route.tag && s.world.lastTag == world.lastTag
    ensures !Enabled(cfg) && NoClears(route.handler(req.pathInfo).body) ==> s.world == world
    ensures s.reply.body.Ok? ==> s.reply.body.value == route.handler(req.pathInfo).result
  {
    var h := route.handler(req.pathInfo);
    var run := Plain(cfg, req, h.body, BodyState(world.files, world.lastTag, NoHeaders, []));
    Served(route.tag, World(run.state.files, world.lastTag),
           Reply(if run.flow.Raised? then Err(run.flow.error) else Ok(h.result), run.state.response, run.state.effects))
  }

  /** The rest of a request once the pre-phase has nothing to serve: the
      block runs inside catch(:cache_stop) and its outcome goes through the
      post-phase as written, on the files as the block left them. */
  function AfterMissAsWritten(cfg: Config, h: Handler, world: World, req: Request, pre: Pre): (r: (World, Reply))
    ensures (forall i :: 0 <= i < |h.body| ==> !h.body[i].CallCacheTag?) ==>
      r.0.files.Keys <= Exec(cfg, req, h.body, BodyState(world.files, world.lastTag, pre.response, [])).state.files.Keys
                        + PostTarget(cfg, pre.tag, world.lastTag)
    ensures (forall i :: 0 <= i < |h.body| ==> !h.body[i].CallCacheTag?) && NoStoreWrites(h.body) ==>
      r.0.files.Keys <= world.files.Keys + PostTarget(cfg, pre.tag, world.lastTag)
    ensures var b := Exec(cfg, req, h.body, BodyState(world.files, world.lastTag, pre.response, [])).state;
      forall p :: p in b.files && p !in PostTarget(cfg, pre.tag, b.lastTag) ==> p in r.0.files && r.0.files[p] == b.files[p]
    ensures (forall i :: 0 <= i < |h.body| ==> !h.body[i].CallCacheTag?) && NoStoreWrites(h.body) ==>
      forall p :: p in world.files && p !in PostTarget(cfg, pre.tag, world.lastTag) ==> p in r.0.files && r.0.files[p] == world.files[p]
  {
    var run := Exec(cfg, req, h.body, BodyState(world.files, world.lastTag, pre.response, []));
    match run.flow
    case Raised(e) =>
      (World(run.state.files, run.state.lastTag), Reply(Err(e), run.state.response, run.state.effects))
    case Escaped(hit) =>
      var p := RoutePostAsWritten(cfg, run.state.files, run.state.lastTag, run.state.response, CacheHit(hit), pre.tag, req.pathInfo, req.now);
      (World(p.files, p.lastTag), Reply(p.body, p.response, run.state.effects))
    case Continue =>
      var p := RoutePostAsWritten(cfg, run.state.files, run.state.lastTag, run.state.response, Normal(h.result), pre.tag, req.pathInfo, req.now);
      (World(p.files, p.lastTag), Reply(p.body, p.response, run.state.effects))
  }

  /** One request through the block cache_route registers, as written. The
      Proc's `tag, cache_content = cache_route_pre(tag, context)` assigns the
      registration tag it captured, so the resolved tag replaces it for every
      later request; cache_last_tag survives a request that escapes, raises
      or fails to write. */
  function ServeAsWritten(cfg: Config, route: Route, world: World, req: Request): (s: Served)
    ensures !Enabled(cfg) ==> s == Uncached(cfg, route, world, req)
  {
    if !Enabled(cfg) then Uncached(cfg, route, world, req)
    else
      match RoutePre(cfg, world.files, route.tag, req.pathInfo)
      case Err(e) => Served(route.tag, world, Reply(Err(e), NoHeaders, []))
      case Ok(pre) =>
        var tag' := AsTagArg(pre.tag);
        if pre.cached.Some? then Served(tag', world, Reply(Ok(pre.cached.value), pre.response, []))
        else
          var r := AfterMissAsWritten(cfg, route.handler(req.pathInfo), world, req, pre);
          Served(tag', r.0, r.1)
  }

  /** Only an auto registration tag is ever replaced, and then by the tag
      the request's path resolved to. */
  lemma AsWrittenReplacesOnlyAuto(cfg: Config, route: Route, world: World, req: Request)
    requires Enabled(cfg)
    ensures var s := ServeAsWritten(cfg, route, world, req);
      s.tag != route.tag ==> route.tag.Auto? && s.tag == Named(GuessTag(Auto, req.pathInfo).value)
  {
    var pre := RoutePre(cfg, world.files, route.tag, req.pathInfo);
    if pre.Ok? {
      var s := ServeAsWritten(cfg, route, world, req);
      assert s.tag == AsTagArg(GuessTag(route.tag, req.pathInfo));
    }
  }

  /** One request through a cached route with both defects corrected: the
      registration tag is left as registered, so each request resolves it
      against its own path, and cache_last_tag is cleared whatever way the
      request ends. Within the request everything happens as written. */
  function Serve(cfg: Config, route: Route, world: World, req: Request): (s: Served)
    ensures s.tag == route.tag
    ensures Enabled(cfg) ==> s.world.lastTag == None
    ensures !Enabled(cfg) ==> s == Uncached(cfg, route, world, req)
    ensures s.reply == ServeAsWritten(cfg, route, world, req).reply
    ensures s.world.files == ServeAsWritten(cfg, route, world, req).world.files
  {
    if !Enabled(cfg) then Uncached(cfg, route, world, req)
    else
      var s := ServeAsWritten(cfg, route, world, req);
      Served(route.tag, s.world.(lastTag := None), s.reply)
  }

  /** The part of a request after a pre-phase miss whose block ran to its
      end: the reply carries the block's effects and the post-phase's body,
      and the post-phase wrote into the files as the block left them. */
  lemma ServeAfterMiss(cfg: Config, route: Route, world: World, req: Request)
    requires Enabled(cfg)
    requires RoutePre(cfg, world.files, route.tag, req.pathInfo).Ok?
    requires RoutePre(cfg, world.files, route.tag, req.pathInfo).value.cached.None?
    requires Exec(cfg, req, route.handler(req.pathInfo).body, BodyState(world.files, world.lastTag, NoHeaders, [])).flow.Continue?
    ensures
      var h := route.handler(req.pathInfo);
      var run := Exec(cfg, req, h.body, BodyState(world.files, world.lastTag, NoHeaders, []));
      var p := RoutePostAsWritten(cfg, run.state.files, run.state.lastTag, run.state.response, Normal(h.result),
                                  GuessTag(route.tag, req.pathInfo), req.pathInfo, req.now);
      var s := Serve(cfg, route, world, req);
      && s.reply == Reply(p.body, p.response, run.state.effects)
      && s.world == World(p.files, None)
  {
    var pre := RoutePre(cfg, world.files, route.tag, req.pathInfo).value;
    var r := AfterMissAsWritten(cfg, route.handler(req.pathInfo), world, req, pre);
    assert ServeAsWritten(cfg, route, world, req) == Served(AsTagArg(pre.tag), r.0, r.1);
  }

  /** With caching off the route cacher is invisible: the block runs as it
      would without it, cache_last_tag is untouched, and the files change
      only through the block's own cache_clear calls. */
  lemma DisabledIsTransparent(cfg: Config, route: Route, world: World, req: Request)
    requires !Enabled(cfg)
    ensures
      var body := route.handler(req.pathInfo).body;
      var run := Exec(cfg, req, body, BodyState(world.files, world.lastTag, NoHeaders, []));
      var s := Serve(cfg, route, world, req);
      && s.world == World(run.state.files, world.lastTag)
      && s.reply.effects == run.state.effects
      && s.reply.response == run.state.response
      && (NoClears(body) ==> s.world == world)
  {
    ExecWhenDisabled(cfg, req, route.handler(req.pathInfo).body, BodyState(world.files, world.lastTag, NoHeaders, []));
  }

  /** cache_clear inside a block is not gated by cache_enabled?: with caching
      off, a block that clears a tag removes that tag's files. */
  lemma DisabledBlockStillClears(cfg: Config, route: Route, world: World, req: Request, tag: string)
    requires !Enabled(cfg)
    requires route.handler(req.pathInfo).body == [CallCacheClear(tag)]
    ensures Serve(cfg, route, world, req).world == World(Clear(cfg, world.files, tag), world.lastTag)
  {
    var st := BodyState(world.files, world.lastTag, NoHeaders, []);
    assert Plain(cfg, req, [CallCacheClear(tag)], st).state.files == Clear(cfg, world.files, tag);
  }

  /** A stored entry for the registration tag answers the request: its
      content is returned with the stored time as etag and the stored content
      type, and the block never runs. */
  lemma PreHitSkipsHandler(cfg: Config, route: Route, world: World, req: Request, hit: Hit)
    requires Enabled(cfg)
    requires Get(cfg, world.files, GuessTag(route.tag, req.pathInfo)) == Ok(Some(hit))
    requires Truthy(hit.content)
    ensures
      var s := Serve(cfg, route, world, req);
      && s.reply.body == Ok(hit.content)
      && s.reply.effects == []
      && s.world.files == world.files
      && s.reply.response.etag == (if cfg.generateEtags then Some(hit.time) else None)
      && s.reply.response.contentType == hit.contentType
  {
  }

  /** The block-level half of the escape: once cache_tag hits, on the files
      as the earlier steps left them, the steps after it do not matter. */
  lemma EscapeAfter(cfg: Config, req: Request, before: seq<Stmt>, tag: TagArg, after: seq<Stmt>, st: BodyState, hit: Hit)
    requires Enabled(cfg)
    requires Exec(cfg, req, before, st).flow.Continue?
    requires Get(cfg, Exec(cfg, req, before, st).state.files, GuessTag(tag, req.pathInfo)) == Ok(Some(hit))
    ensures Exec(cfg, req, before + [CallCacheTag(tag)] + after, st)
         == Run(Escaped(hit), Exec(cfg, req, before, st).state)
  {
    var rest := [CallCacheTag(tag)] + after;
    assert before + [CallCacheTag(tag)] + after == before + rest;
    ExecAppend(cfg, req, before, rest, st);
    var b := Exec(cfg, req, before, st).state;
    assert rest[0] == CallCacheTag(tag);
    assert CacheTag(cfg, b.files, req.pathInfo, tag, b.lastTag) == (Escaped(hit), b.lastTag);
    assert Exec(cfg, req, rest, b) == Run(Escaped(hit), b);
  }

  /** cache_tag finding a stored entry ends the block there: no later step
      runs, the post-phase writes nothing, and the reply is the stored
      content with its time and content type applied. */
  lemma EscapeSkipsRest(cfg: Config, route: Route, world: World, req: Request,
                        before: seq<Stmt>, tag: TagArg, after: seq<Stmt>, hit: Hit)
    requires Enabled(cfg)
    requires route.handler(req.pathInfo).body == before + [CallCacheTag(tag)] + after
    requires RoutePre(cfg, world.files, route.tag, req.pathInfo).Ok?
    requires RoutePre(cfg, world.files, route.tag, req.pathInfo).value.cached.None?
    requires Exec(cfg, req, before, BodyState(world.files, world.lastTag, NoHeaders, [])).flow.Continue?
    requires Get(cfg, Exec(cfg, req, before, BodyState(world.files, world.lastTag, NoHeaders, [])).state.files,
                 GuessTag(tag, req.pathInfo)) == Ok(Some(hit))
    ensures
      var b := Exec(cfg, req, before, BodyState(world.files, world.lastTag, NoHeaders, [])).state;
      var s := Serve(cfg, route, world, req);
      && s.reply == Reply(Ok(hit.content), ApplyHit(cfg, b.response, hit), b.effects)
      && s.world == World(b.files, None)
      && (NoStoreWrites(before) ==> s.world == World(world.files, None))
  {
    var st := BodyState(world.files, world.lastTag, NoHeaders, []);
    var b := Exec(cfg, req, before, st).state;
    EscapeAfter(cfg, req, before, tag, after, st, hit);
    assert Exec(cfg, req, route.handler(req.pathInfo).body, st) == Run(Escaped(hit), b);
    var pre := RoutePre(cfg, world.files, route.tag, req.pathInfo).value;
    var r := AfterMissAsWritten(cfg, route.handler(req.pathInfo), world, req, pre);
    assert r == (World(b.files, b.lastTag), Reply(Ok(hit.content), ApplyHit(cfg, b.response, hit), b.effects));
    assert ServeAsWritten(cfg, route, world, req) == Served(AsTagArg(pre.tag), r.0, r.1);
  }

  /** Two requests for the same path on a tagged route: the first runs the
      block and stores its value; the second is answered from the store with
      the same body, etag and content type, without running the block, and
      writes nothing. */
  lemma RepeatRequestHits(cfg: Config, route: Route, world: World, q1: Request, q2: Request, t: string)
    requires Enabled(cfg)
    requires world.lastTag == None
    requires q2.pathInfo == q1.pathInfo
    requires GuessTag(route.tag, q1.pathInfo) == Some(t) && !EndsWith(t, '/')
    requires Get(cfg, world.files, Some(t)) == Ok(None)
    requires
      var h := route.handler(q1.pathInfo);
      var run := Exec(cfg, q1, h.body, BodyState(world.files, None, NoHeaders, []));
      && run.flow.Continue?
      && Truthy(h.result)
      && (h.result.Str? || (run.state.response.contentType.None? && RoundTrips(cfg.marshal)))
      && StorableContentType(run.state.response.contentType)
    ensures
      var s1 := Serve(cfg, route, world, q1);
      var s2 := Serve(cfg, route, s1.world, q2);
      && s1.reply.body == Ok(route.handler(q1.pathInfo).result)
      && s2.reply.body == s1.reply.body
      && s2.reply.effects == []
      && s2.reply.response.etag == s1.reply.response.etag
      && s2.reply.response.contentType == ReadBack(s1.reply.response.contentType)
      && s2.world == s1.world
  {
    var h := route.handler(q1.pathInfo);
    var run := Exec(cfg, q1, h.body, BodyState(world.files, None, NoHeaders, []));
    PostStoresResult(cfg, run.state.files, run.state.lastTag, run.state.response, h.result, Some(t), q1.pathInfo, q1.now);
  }

  /** The first request to a route whose block starts with cache_tag on a
      missing entry: the tag is recorded, the rest of the block runs, and the
      page is stored under the recorded tag. */
  lemma CacheTagFirstRequest(cfg: Config, route: Route, world: World, req: Request, a: string)
    requires Enabled(cfg) && world.lastTag == None && route.tag == NoTag
    requires !EndsWith(a, '/') && Get(cfg, world.files, Some(a)) == Ok(None)
    requires
      var h := route.handler(req.pathInfo);
      |h.body| > 0 && h.body[0] == CallCacheTag(Named(a)) && RendersPage(Handler(h.body[1..], h.result))
    ensures
      var h := route.handler(req.pathInfo);
      var s := Serve(cfg, route, world, req);
      && s.reply.body == Ok(h.result)
      && s.reply.effects == Performed(h.body[1..])
      && Get(cfg, s.world.files, Some(a)) == Ok(Some(Hit(h.result, req.now, None)))
  {
    var h := route.handler(req.pathInfo);
    var st := BodyState(world.files, None, NoHeaders, []);
    ExecOfEffects(cfg, req, h.body[1..], st.(lastTag := Some(a)));
    assert CacheTag(cfg, world.files, req.pathInfo, Named(a), None) == (Continue, Some(a));
    assert Exec(cfg, req, h.body, st) == Exec(cfg, req, h.body[1..], st.(lastTag := Some(a)));
    assert RoutePre(cfg, world.files, NoTag, req.pathInfo) == Ok(Pre(None, None, NoHeaders));
    ServeAfterMiss(cfg, route, world, req);
    PostStoresResult(cfg, world.files, Some(a), NoHeaders, h.result, None, req.pathInfo, req.now);
  }

  /** The cache_tag route of the test application: after the first request
      has stored its page, the next request for the same path escapes at
      cache_tag with that page before any later step runs, and writes
      nothing. */
  lemma CacheTagRouteHits(cfg: Config, route: Route, world: World, q1: Request, q2: Request, a: string)
    requires Enabled(cfg) && world.lastTag == None && route.tag == NoTag
    requires q2.pathInfo == q1.pathInfo
    requires !EndsWith(a, '/') && Get(cfg, world.files, Some(a)) == Ok(None)
    requires
      var h := route.handler(q1.pathInfo);
      |h.body| > 0 && h.body[0] == CallCacheTag(Named(a)) && RendersPage(Handler(h.body[1..], h.result))
    ensures
      var h := route.handler(q1.pathInfo);
      var s1 := Serve(cfg, route, world, q1);
      var s2 := Serve(cfg, route, s1.world, q2);
      && s1.reply.body == Ok(h.result)
      && s2.reply.body == Ok(h.result)
      && s2.reply.effects == []
      && s2.world == s1.world
  {
    var h := route.handler(q1.pathInfo);
    CacheTagFirstRequest(cfg, route, world, q1, a);
    var s1 := Serve(cfg, route, world, q1);
    CacheTagEscapesAtOnce(cfg, route, s1.world, q2, a, Hit(h.result, q1.now, None));
  }

  /** A route with no tag whose block starts with cache_tag on a stored
      entry: the request is answered from the entry before any step of its
      own, and nothing is written. */
  lemma CacheTagEscapesAtOnce(cfg: Config, route: Route, world: World, req: Request, a: string, hit: Hit)
    requires Enabled(cfg) && world.lastTag == None && route.tag == NoTag
    requires |route.handler(req.pathInfo).body| > 0 && route.handler(req.pathInfo).body[0] == CallCacheTag(Named(a))
    requires Get(cfg, world.files, Some(a)) == Ok(Some(hit))
    ensures
      var s := Serve(cfg, route, world, req);
      s.reply.body == Ok(hit.content) && s.reply.effects == [] && s.world == world
  {
    var h := route.handler(req.pathInfo);
    var st := BodyState(world.files, None, NoHeaders, []);
    var pre := Pre(None, None, NoHeaders);
    assert RoutePre(cfg, world.files, NoTag, req.pathInfo) == Ok(pre);
    assert CacheTag(cfg, world.files, req.pathInfo, Named(a), None) == (Escaped(hit), None);
    assert Exec(cfg, req, h.body, st) == Run(Escaped(hit), st);
    var r := AfterMissAsWritten(cfg, h, world, req, pre);
    assert r == (world, Reply(Ok(hit.content), ApplyHit(cfg, NoHeaders, hit), []));
    assert ServeAsWritten(cfg, route, world, req) == Served(NoTag, r.0, r.1);
  }

  /** A route with no tag whose block never calls cache_tag: the cacher
      itself writes nothing, so the files are exactly those the block's own
      cache_block and cache_clear calls left, given that no earlier request
      left a tag behind, which Serve guarantees. */
  lemma UntaggedRouteWritesNothing(cfg: Config, route: Route, world: World, req: Request)
    requires route.tag == NoTag && world.lastTag == None
    requires forall i :: 0 <= i < |route.handler(req.pathInfo).body| ==> !route.handler(req.pathInfo).body[i].CallCacheTag?
    ensures Serve(cfg, route, world, req).world
         == World(Exec(cfg, req, route.handler(req.pathInfo).body, BodyState(world.files, None, NoHeaders, [])).state.files, None)
    ensures NoStoreWrites(route.handler(req.pathInfo).body) ==> Serve(cfg, route, world, req).world == World(world.files, None)
  {
    var h := route.handler(req.pathInfo);
    var st := BodyState(world.files, None, NoHeaders, []);
    if !Enabled(cfg) {
      ExecWhenDisabled(cfg, req, h.body, st);
    } else {
      var pre := RoutePre(cfg, world.files, NoTag, req.pathInfo);
      assert pre == Ok(Pre(None, None, NoHeaders));
      var r := AfterMissAsWritten(cfg, h, world, req, pre.value);
      assert r.0 == World(Exec(cfg, req, h.body, st).state.files, None);
      assert ServeAsWritten(cfg, route, world, req) == Served(NoTag, r.0, r.1);
    }
  }

  /** A block made of one cache_block call that succeeds runs to its end
      with the files cache_block left. */
  lemma ExecSingleCacheBlock(cfg: Config, req: Request, tag: string, v: Value, st: BodyState)
    requires CacheBlock(cfg, st.files, tag, Some(v), req.now).Ok?
    ensures Exec(cfg, req, [CallCacheBlock(tag, v)], st)
         == Run(Continue, st.(files := CacheBlock(cfg, st.files, tag, Some(v), req.now).value.files))
  {
    assert [CallCacheBlock(tag, v)][1..] == [];
  }

  /** A block's own cache_block persists past the request: on a route with
      no tag, a missed fragment is stored with the request's time. */
  lemma BlockFragmentPersists(cfg: Config, route: Route, world: World, req: Request, tag: string, v: Value)
    requires Enabled(cfg) && world.lastTag == None && route.tag == NoTag
    requires route.handler(req.pathInfo).body == [CallCacheBlock(tag, v)]
    requires tag != [] && !EndsWith(tag, '/') && (v.Str? || RoundTrips(cfg.marshal))
    requires Get(cfg, world.files, Some(FragmentTag(tag))) == Ok(None)
    ensures Get(cfg, Serve(cfg, route, world, req).world.files, Some(FragmentTag(tag))) == Ok(Some(Hit(v, req.now, None)))
  {
    CacheBlockStoresOnMiss(cfg, world.files, tag, v, req.now);
    var st := BodyState(world.files, None, NoHeaders, []);
    ExecSingleCacheBlock(cfg, req, tag, v, st);
    UntaggedRouteWritesNothing(cfg, route, world, req);
  }

  /** On a route with no tag, a block that escapes answers the request
      with the escaped entry's content. */
  lemma UntaggedEscapeAnswers(cfg: Config, route: Route, world: World, req: Request, hit: Hit)
    requires Enabled(cfg) && route.tag == NoTag
    requires Exec(cfg, req, route.handler(req.pathInfo).body, BodyState(world.files, world.lastTag, NoHeaders, [])).flow == Escaped(hit)
    ensures Serve(cfg, route, world, req).reply.body == Ok(hit.content)
  {
    var pre := Pre(None, None, NoHeaders);
    assert RoutePre(cfg, world.files, NoTag, req.pathInfo) == Ok(pre);
    var r := AfterMissAsWritten(cfg, route.handler(req.pathInfo), world, req, pre);
    assert r.1.body == Ok(hit.content);
    assert ServeAsWritten(cfg, route, world, req) == Served(NoTag, r.0, r.1);
  }

  /** Inside a block, cache_tag on a fragment that cache_block has just
      stored escapes with that fragment. */
  lemma BlockThenTagEscapes(cfg: Config, req: Request, tag: string, v: Value, st: BodyState)
    requires Enabled(cfg) && tag != [] && !EndsWith(tag, '/') && (v.Str? || RoundTrips(cfg.marshal))
    requires Get(cfg, st.files, Some(FragmentTag(tag))) == Ok(None)
    ensures Exec(cfg, req, [CallCacheBlock(tag, v), CallCacheTag(Named(FragmentTag(tag)))], st).flow
         == Escaped(Hit(v, req.now, None))
  {
    var t := FragmentTag(tag);
    CacheBlockStoresOnMiss(cfg, st.files, tag, v, req.now);
    var body := [CallCacheBlock(tag, v), CallCacheTag(Named(t))];
    var f := CacheBlock(cfg, st.files, tag, Some(v), req.now).value.files;
    assert body[1..] == [CallCacheTag(Named(t))];
    assert Exec(cfg, req, body, st) == Exec(cfg, req, body[1..], st.(files := f));
    assert GuessTag(Named(t), req.pathInfo) == Some(t);
    assert CacheTag(cfg, f, req.pathInfo, Named(t), st.lastTag) == (Escaped(Hit(v, req.now, None)), st.lastTag);
  }

  /** A later cache_tag sees what an earlier cache_block wrote in the same
      block: tagging the fragment just stored answers the request with its
      value. */
  lemma CacheTagSeesBlockWrite(cfg: Config, route: Route, world: World, req: Request, tag: string, v: Value)
    requires Enabled(cfg) && route.tag == NoTag
    requires route.handler(req.pathInfo).body == [CallCacheBlock(tag, v), CallCacheTag(Named(FragmentTag(tag)))]
    requires tag != [] && !EndsWith(tag, '/') && (v.Str? || RoundTrips(cfg.marshal))
    requires Get(cfg, world.files, Some(FragmentTag(tag))) == Ok(None)
    ensures Serve(cfg, route, world, req).reply.body == Ok(v)
  {
    BlockThenTagEscapes(cfg, req, tag, v, BodyState(world.files, world.lastTag, NoHeaders, []));
    UntaggedEscapeAnswers(cfg, route, world, req, Hit(v, req.now, None));
  }

  /** The pre-phase hit as written: the same reply as Serve gives, with the
      registration tag replaced by the resolved one. */
  lemma AsWrittenPreHit(cfg: Config, route: Route, world: World, req: Request, hit: Hit)
    requires Enabled(cfg)
    requires Get(cfg, world.files, GuessTag(route.tag, req.pathInfo)) == Ok(Some(hit))
    requires Truthy(hit.content)
    ensures
      var s := ServeAsWritten(cfg, route, world, req);
      && s.reply == Reply(Ok(hit.content), ApplyHit(cfg, NoHeaders, hit), [])
      && s.world == world
      && s.tag == AsTagArg(GuessTag(route.tag, req.pathInfo))
  {
  }

  /** Besides the block's own cache_block and cache_clear writes, a request
      writes at most the entry of the tag its post-phase chose: the
      registration tag resolved against the path, else the recorded one. */
  lemma ServeWritesOnlyItsTag(cfg: Config, route: Route, world: World, req: Request)
    requires Enabled(cfg)
    requires world.lastTag == None
    requires forall i :: 0 <= i < |route.handler(req.pathInfo).body| ==> !route.handler(req.pathInfo).body[i].CallCacheTag?
    ensures
      var blockFiles := Exec(cfg, req, route.handler(req.pathInfo).body, BodyState(world.files, None, NoHeaders, [])).state.files;
      var pre := RoutePre(cfg, world.files, route.tag, req.pathInfo);
      var t := GuessTag(route.tag, req.pathInfo);
      var files := Serve(cfg, route, world, req).world.files;
      && (t.None? ==> files == blockFiles)
      && (t.Some? && !(pre.Ok? && pre.value.cached.None?) ==> files == world.files)
      && (t.Some? && pre.Ok? && pre.value.cached.None? ==>
            && files.Keys <= blockFiles.Keys + {EntryPath(cfg.cachePath, t.value)}
            && forall p :: p in blockFiles && p != EntryPath(cfg.cachePath, t.value) ==> p in files && files[p] == blockFiles[p])
    ensures NoStoreWrites(route.handler(req.pathInfo).body) && GuessTag(route.tag, req.pathInfo).None? ==>
      Serve(cfg, route, world, req).world.files == world.files
    ensures NoStoreWrites(route.handler(req.pathInfo).body) && GuessTag(route.tag, req.pathInfo).Some? ==>
      var t := GuessTag(route.tag, req.pathInfo).value;
      var files := Serve(cfg, route, world, req).world.files;
      && files.Keys <= world.files.Keys + {EntryPath(cfg.cachePath, t)}
      && forall p :: p in world.files && p != EntryPath(cfg.cachePath, t) ==> p in files && files[p] == world.files[p]
  {
    var h := route.handler(req.pathInfo);
    var pre := RoutePre(cfg, world.files, route.tag, req.pathInfo);
    if GuessTag(route.tag, req.pathInfo).None? {
      UntaggedRouteWritesNothing(cfg, route, world, req);
    } else if pre.Ok? && pre.value.cached.None? {
      var r := AfterMissAsWritten(cfg, h, world, req, pre.value);
      assert ServeAsWritten(cfg, route, world, req).world == r.0;
      assert PostTarget(cfg, pre.value.tag, None) == {EntryPath(cfg.cachePath, GuessTag(route.tag, req.pathInfo).value)};
    }
  }

  // -----------------------------------------------------------------------
  // The two defects of the route protocol as written, each next to the same
  // requests under the corrected protocol.
  // -----------------------------------------------------------------------

  /** After a miss on tag `t`, a block that renders a page runs to its end
      and its page is written under `t`, with the write time as etag. */
  lemma MissRendersAndStores(cfg: Config, h: Handler, world: World, req: Request, t: string)
    requires Enabled(cfg) && world.lastTag == None
    requires RendersPage(h) && !EndsWith(t, '/')
    ensures
      var w := Put(cfg, world.files, t, h.result, None, req.now);
      && w.Ok? && w.value.time == Some(req.now)
      && AfterMissAsWritten(cfg, h, world, req, Pre(Some(t), None, NoHeaders))
         == (World(w.value.files, None),
             Reply(Ok(h.result), if cfg.generateEtags then NoHeaders.(etag := Some(req.now)) else NoHeaders,
                   Performed(h.body)))
  {
    ExecOfEffects(cfg, req, h.body, BodyState(world.files, None, NoHeaders, []));
    assert GuessTag(Named(t), req.pathInfo).value == t;
  }

  /** A request that misses on a tagged route whose block renders a page,
      as written: the block runs, its page is stored under the resolved tag
      at the request's time, and the resolved tag becomes the route's tag. */
  lemma FirstRequestStores(cfg: Config, route: Route, world: World, req: Request, t: string)
    requires Enabled(cfg) && world.lastTag == None
    requires GuessTag(route.tag, req.pathInfo) == Some(t) && !EndsWith(t, '/')
    requires Get(cfg, world.files, Some(t)) == Ok(None)
    requires RendersPage(route.handler(req.pathInfo))
    ensures
      var h := route.handler(req.pathInfo);
      var s := ServeAsWritten(cfg, route, world, req);
      && s.tag == Named(t)
      && s.world == World(Put(cfg, world.files, t, h.result, None, req.now).value.files, None)
      && s.reply.body == Ok(h.result)
      && s.reply.effects == Performed(h.body)
      && Get(cfg, s.world.files, Some(t)) == Ok(Some(Hit(h.result, req.now, None)))
  {
    var h := route.handler(req.pathInfo);
    var pre := RoutePre(cfg, world.files, route.tag, req.pathInfo);
    assert pre == Ok(Pre(Some(t), None, NoHeaders));
    MissRendersAndStores(cfg, h, world, req, t);
    PutThenGet(cfg, world.files, t, h.result, None, req.now);
    var r := AfterMissAsWritten(cfg, h, world, req, pre.value);
    assert ServeAsWritten(cfg, route, world, req) == Served(Named(t), r.0, r.1);
  }


  /** As written, an `:auto` route keeps the tag its first request resolved
      to: whatever path the second request has, it is answered with the page
      stored for the first one and the block does not run. */
  lemma AutoTagSticksToFirstPath(cfg: Config, handler: string -> Handler, world: World, q1: Request, q2: Request)
    requires Enabled(cfg) && world.lastTag == None
    requires Get(cfg, world.files, GuessTag(Auto, q1.pathInfo)) == Ok(None)
    requires RendersPage(handler(q1.pathInfo))
    ensures
      var s1 := ServeAsWritten(cfg, Route(Auto, handler), world, q1);
      var s2 := ServeAsWritten(cfg, Route(s1.tag, handler), s1.world, q2);
      && s1.tag == Named(GuessTag(Auto, q1.pathInfo).value)
      && s2.reply.body == Ok(handler(q1.pathInfo).result)
      && s2.reply.effects == []
  {
    var t := GuessTag(Auto, q1.pathInfo).value;
    FirstRequestStores(cfg, Route(Auto, handler), world, q1, t);
    var s1 := ServeAsWritten(cfg, Route(Auto, handler), world, q1);
    AsWrittenPreHit(cfg, Route(Named(t), handler), s1.world, q2, Hit(handler(q1.pathInfo).result, q1.now, None));
  }

  /** The same two requests with the registration tag left alone: a second
      path with a different auto tag is resolved against itself, misses, and
      runs the block. */
  lemma AutoTagFollowsEachPath(cfg: Config, handler: string -> Handler, world: World, q1: Request, q2: Request)
    requires Enabled(cfg) && world.lastTag == None
    requires Get(cfg, world.files, GuessTag(Auto, q1.pathInfo)) == Ok(None)
    requires Get(cfg, world.files, GuessTag(Auto, q2.pathInfo)) == Ok(None)
    requires q1.pathInfo != [] && q1.pathInfo[0] == '/' && q2.pathInfo != [] && q2.pathInfo[0] == '/'
    requires GuessTag(Auto, q1.pathInfo) != GuessTag(Auto, q2.pathInfo)
    requires RendersPage(handler(q1.pathInfo)) && RendersPage(handler(q2.pathInfo))
    ensures
      var s1 := Serve(cfg, Route(Auto, handler), world, q1);
      var s2 := Serve(cfg, Route(s1.tag, handler), s1.world, q2);
      && s1.tag == Auto
      && s2.reply.body == Ok(handler(q2.pathInfo).result)
      && s2.reply.effects == Performed(handler(q2.pathInfo).body)
  {
    var t1 := GuessTag(Auto, q1.pathInfo).value;
    var t2 := GuessTag(Auto, q2.pathInfo).value;
    var route := Route(Auto, handler);
    assert t1[0] == '/' && t2[0] == '/';
    EntryPathInjective(cfg.cachePath, t2, t1);
    FirstRequestStores(cfg, route, world, q1, t1);
    var s1 := Serve(cfg, route, world, q1);
    PutKeepsOtherTags(cfg, world.files, t1, handler(q1.pathInfo).result, None, q1.now, t2);
    assert s1.world == World(Put(cfg, world.files, t1, handler(q1.pathInfo).result, None, q1.now).value.files, None);
    FirstRequestStores(cfg, route, s1.world, q2, t2);
  }

  /** As written, a block that records tag `a` through cache_tag and then
      escapes on a stored tag `b` leaves cache_last_tag at `a`; the next
      request, on a route with no tag at all, stores its page under `a`. */
  lemma LastTagLeaksToNextRequest(cfg: Config, r1: Route, r2: Route, world: World, q1: Request, q2: Request,
                                  a: string, b: string, hit: Hit)
    requires Enabled(cfg) && world.lastTag == None
    requires r1.tag == NoTag && r1.handler(q1.pathInfo).body == [CallCacheTag(Named(a)), CallCacheTag(Named(b))]
    requires !EndsWith(a, '/')
    requires Get(cfg, world.files, Some(a)) == Ok(None)
    requires Get(cfg, world.files, Some(b)) == Ok(Some(hit))
    requires r2.tag == NoTag && RendersPage(r2.handler(q2.pathInfo))
    ensures
      var s1 := ServeAsWritten(cfg, r1, world, q1);
      var s2 := ServeAsWritten(cfg, r2, s1.world, q2);
      && s1.reply.body == Ok(hit.content)
      && s1.world == World(world.files, Some(a))
      && Get(cfg, s2.world.files, Some(a)) == Ok(Some(Hit(r2.handler(q2.pathInfo).result, q2.now, None)))
  {
    var h1 := r1.handler(q1.pathInfo);
    var st := BodyState(world.files, None, NoHeaders, []);
    var pre1 := RoutePre(cfg, world.files, NoTag, q1.pathInfo);
    assert pre1 == Ok(Pre(None, None, NoHeaders));
    assert Exec(cfg, q1, h1.body[1..], st.(lastTag := Some(a))) == Run(Escaped(hit), st.(lastTag := Some(a)));
    assert Exec(cfg, q1, h1.body, st) == Run(Escaped(hit), st.(lastTag := Some(a)));
    var w1 := AfterMissAsWritten(cfg, h1, world, q1, pre1.value);
    assert w1.0 == World(world.files, Some(a));
    assert ServeAsWritten(cfg, r1, world, q1) == Served(NoTag, w1.0, w1.1);

    var h2 := r2.handler(q2.pathInfo);
    var world2 := World(world.files, Some(a));
    ExecOfEffects(cfg, q2, h2.body, st.(lastTag := Some(a)));
    var pre2 := RoutePre(cfg, world.files, NoTag, q2.pathInfo);
    assert pre2 == Ok(Pre(None, None, NoHeaders));
    PostStoresResult(cfg, world.files, Some(a), NoHeaders, h2.result, None, q2.pathInfo, q2.now);
    var w2 := AfterMissAsWritten(cfg, h2, world2, q2, pre2.value);
    assert ServeAsWritten(cfg, r2, world2, q2) == Served(NoTag, w2.0, w2.1);
  }

  /** With cache_last_tag cleared on every path, whatever the previous
      request did, an untagged route whose block never calls cache_tag gets
      no write from the cacher: the files are those its block's own
      cache_block and cache_clear calls leave. */
  lemma LastTagClearedBeforeNextRequest(cfg: Config, r1: Route, r2: Route, world: World, q1: Request, q2: Request)
    requires Enabled(cfg)
    requires r2.tag == NoTag
    requires forall i :: 0 <= i < |r2.handler(q2.pathInfo).body| ==> !r2.handler(q2.pathInfo).body[i].CallCacheTag?
    ensures
      var s1 := Serve(cfg, r1, world, q1);
      var s2 := Serve(cfg, r2, s1.world, q2);
      && s2.world == World(Exec(cfg, q2, r2.handler(q2.pathInfo).body, BodyState(s1.world.files, None, NoHeaders, [])).state.files, None)
      && (NoStoreWrites(r2.handler(q2.pathInfo).body) ==> s2.world == s1.world)
  {
    var s1 := Serve(cfg, r1, world, q1);
    UntaggedRouteWritesNothing(cfg, r2, s1.world, q2);
  }
}

=== FILE: results.dfy ===
/** Failure-carrying wrappers used throughout the model: Ruby's `nil` becomes
    `None`, and an exception raised by the cacher becomes `Err`. */
module Results {

  datatype Option<+T> = None | Some(value: T)

  datatype Result<+T, +E> = Ok(value: T) | Err(error: E)
}

=== FILE: ruby.dfy ===
/** The Ruby values a cached route or block can produce, Ruby's truthiness,
    the Marshal collaborator and the exceptions the cacher raises. */
module Ruby {
  import opened Results

  /** The values that reach the cache. `Str` is a Ruby String; every other
      constructor is a non-String object and is stored through Marshal. */
  datatype Value =
    | Nil
    | Bool(b: bool)
    | Int(i: int)
    | Str(s: string)
    | Sym(name: string)
    | Arr(elems: seq<Value>)
    | Hash(pairs: seq<(Value, Value)>)

  /** Ruby's `if v`: everything except nil and false */
  predicate Truthy(v: Value) {
    !v.Nil? && v != Bool(false)
  }

  /** Marshal.dump and Marshal.load, taken as given. `load` answers `None`
      where Marshal.load would raise on bytes it cannot read. */
  datatype Marshal = Marshal(dump: Value -> string, load: string -> Option<Value>)

  /** What the cacher relies on: loading a dump gives the value back. */
  ghost predicate RoundTrips(m: Marshal) {
    forall v :: m.load(m.dump(v)) == Some(v)
  }

  /** The exceptions that escape from the cacher's operations. */
  datatype Exception =
    | MalformedEntry            // a cache file with fewer than two lines: `nil.chomp` raises
    | UnreadablePayload         // Marshal.load rejects the stored payload
    | TagEndsWithSlash          // "Cache tag should not end with a slash"
    | NonStringWithContentType  // "Can't cache a route which doesn't return a string"
    | NoBlockGiven              // "No block given to cache_block"
    | HandlerRaised             // an exception raised by the route's own code
}

=== FILE: ruby_text.dfy ===
/** The pieces of Ruby's core library that the cache entry format and the
    cache key derivation rest on, modelled on `string` (a sequence of
    characters standing for the file's bytes). */
module RubyText {
  import opened Results

  predicate IsDigit(c: char) {
    '0' <= c <= '9'
  }

  predicate AllDigits(s: string) {
    forall i :: 0 <= i < |s| ==> IsDigit(s[i])
  }

  /** String#end_with? for a one-character suffix */
  predicate EndsWith(s: string, c: char) {
    |s| > 0 && s[|s| - 1] == c
  }

  /** String#start_with? */
  predicate StartsWith(s: string, prefix: string) {
    |prefix| <= |s| && s[..|prefix|] == prefix
  }

  function DigitChar(d: nat): char
    requires d < 10
  {
    (('0' as int) + d) as char
  }

  function DigitValue(c: char): nat
    requires IsDigit(c)
  {
    (c as int) - ('0' as int)
  }

  // ---------------------------------------------------------------------
  // Integer#to_s and String#to_i (base 10)
  // ---------------------------------------------------------------------

  /** Integer#to_s of a non-negative integer: its decimal digits, most
      significant first, with no leading zero. */
  function NatToS(n: nat): (s: string)
    ensures |s| > 0 && AllDigits(s)
    ensures |s| > 1 ==> s[0] != '0'
    decreases n
  {
    if n < 10 then [DigitChar(n)] else NatToS(n / 10) + [DigitChar(n % 10)]
  }

  /** Integer#to_s */
  function IntToS(n: int): (s: string)
    ensures |s| > 0 && (s[0] == '-' || IsDigit(s[0]))
    ensures forall i :: 0 <= i < |s| ==> s[i] != '\n' && s[i] != '\r'
  {
    if n < 0 then "-" + NatToS(-n) else NatToS(n)
  }

  /** The number a string of decimal digits denotes. */
  function DigitsValue(s: string): nat
    requires AllDigits(s)
    decreases |s|
  {
    if s == [] then 0 else DigitsValue(s[..|s| - 1]) * 10 + DigitValue(s[|s| - 1])
  }

  /** Length of the longest prefix of `s` made of decimal digits. */
  function DigitRun(s: string): (n: nat)
    ensures n <= |s| && AllDigits(s[..n])
    ensures n < |s| ==> !IsDigit(s[n])
  {
    if s == [] || !IsDigit(s[0]) then 0
    else
      var m := DigitRun(s[1..]);
      assert s[..1 + m] == [s[0]] + s[1..][..m];
      1 + m
  }

  /** Ruby's ISSPACE: space, tab, newline, vertical tab, form feed, carriage return */
  predicate IsSpace(c: char) {
    c == ' ' || '\t' <= c <= '\r'
  }

  /** `s` without its leading white space. */
  function SkipSpace(s: string): (r: string)
    ensures |r| <= |s| && r == s[|s| - |r|..]
    ensures forall i :: 0 <= i < |s| - |r| ==> IsSpace(s[i])
    ensures r == [] || !IsSpace(r[0])
  {
    if s != [] && IsSpace(s[0]) then
      var r := SkipSpace(s[1..]);
      assert forall i :: 1 <= i < |s| - |r| ==> s[i] == s[1..][i - 1];
      r
    else s
  }

  /** The optional radix prefix String#to_i accepts in base 10: a leading
      "0d" or "0D" is skipped. */
  function DropDecimalPrefix(s: string): (r: string)
    ensures r == s || (|s| >= 2 && r == s[2..] && s[0] == '0' && s[1] in "dD")
  {
    if |s| >= 2 && s[0] == '0' && (s[1] == 'd' || s[1] == 'D') then s[2..] else s
  }

  /** The unsigned part of String#to_i: an optional "0d" prefix, then the
      value of the longest run of digits (0 when there is none). */
  function UnsignedToI(u: string): (v: nat)
    ensures AllDigits(u) ==> v == DigitsValue(u)
  {
    var w := DropDecimalPrefix(u);
    var n := DigitRun(w);
    assert AllDigits(u) ==> w[..n] == u by {
      if AllDigits(u) {
        assert w == u;
        DigitRunOfDigits(u);
      }
    }
    DigitsValue(w[..n])
  }

  /** String#to_i: leading white space is skipped, an optional sign is read,
      then an optional "0d" prefix, then the longest run of digits; anything
      else yields 0 for the missing digits rather than an error. */
  function ToI(s: string): (r: int)
    ensures AllDigits(s) ==> r == DigitsValue(s)
    ensures SkipSpace(s) == [] ==> r == 0
  {
    var t := SkipSpace(s);
    assert AllDigits(s) ==> t == s;
    if |t| > 0 && (t[0] == '-' || t[0] == '+') then
      var v: int := UnsignedToI(t[1..]);
      if t[0] == '-' then -v else v
    else
      UnsignedToI(t)
  }

  lemma {:induction false} DigitsValueOfNatToS(n: nat)
    ensures DigitsValue(NatToS(n)) == n
    decreases n
  {
    var s := NatToS(n);
    if n < 10 {
      assert s[..|s| - 1] == [];
    } else {
      DigitsValueOfNatToS(n / 10);
      assert s[..|s| - 1] == NatToS(n / 10);
    }
  }

  lemma DigitRunOfDigits(s: string)
    requires AllDigits(s)
    ensures DigitRun(s) == |s|
  {
  }

  /** String#to_i reads back what Integer#to_s wrote. */
  lemma ToIOfIntToS(n: int)
    ensures ToI(IntToS(n)) == n
  {
    var s := IntToS(n);
    var m: nat := if n < 0 then -n else n;
    var d := NatToS(m);
    assert !IsSpace(s[0]);
    assert SkipSpace(s) == s;
    DigitsValueOfNatToS(m);
    assert UnsignedToI(d) == m;
    if n < 0 {
      assert s[1..] == d;
    } else {
      assert s == d;
    }
  }

  /** The "0d" prefix is skipped before the digits are read. */
  lemma UnsignedToIDecimalPrefix(prefix: string, digits: string)
    requires prefix == "0d" || prefix == "0D"
    requires AllDigits(digits)
    ensures UnsignedToI(prefix + digits) == DigitsValue(digits)
  {
    assert (prefix + digits)[2..] == digits;
    DigitRunOfDigits(digits);
    assert digits[..DigitRun(digits)] == digits;
  }

  /** A signed number read by String#to_i: the sign applied to the unsigned
      part after it. */
  lemma ToIOfSigned(s: string)
    requires |s| > 0 && (s[0] == '-' || s[0] == '+')
    ensures ToI(s) == if s[0] == '-' then 0 - UnsignedToI(s[1..]) else UnsignedToI(s[1..]) as int
  {
    assert !IsSpace(s[0]) && !IsDigit(s[0]);
    assert SkipSpace(s) == s;
  }

  /** A number without a sign or leading white space is read by String#to_i
      as its unsigned part. */
  lemma ToIOfUnsigned(s: string)
    requires |s| > 0 && !IsSpace(s[0]) && s[0] != '-' && s[0] != '+'
    ensures ToI(s) == UnsignedToI(s)
  {
    assert SkipSpace(s) == s;
  }

  /** String#to_i skips a "0d" radix prefix: "0d12" reads as 12. */
  lemma ToIDecimalPrefix(prefix: string, digits: string)
    requires prefix == "0d" || prefix == "0D"
    requires AllDigits(digits)
    ensures ToI(prefix + digits) == DigitsValue(digits)
  {
    UnsignedToIDecimalPrefix(prefix, digits);
    ToIOfUnsigned(prefix + digits);
  }

  /** The "0d" prefix may follow a sign: "-0D7" reads as -7. */
  lemma ToISignedDecimalPrefix(sign: char, prefix: string, digits: string)
    requires sign == '-' || sign == '+'
    requires prefix == "0d" || prefix == "0D"
    requires AllDigits(digits)
    ensures ToI([sign] + prefix + digits) == if sign == '-' then 0 - DigitsValue(digits) else DigitsValue(digits) as int
  {
    var s := [sign] + prefix + digits;
    UnsignedToIDecimalPrefix(prefix, digits);
    assert s[1..] == prefix + digits;
    ToIOfSigned(s);
  }

  // ---------------------------------------------------------------------
  // IO#puts, IO#gets and String#chomp
  // ---------------------------------------------------------------------

  /** IO#puts of one string: the string, then a newline unless it already
      ends with one. (`puts nil` writes the empty line, so callers pass "".) */
  function Puts(s: string): (r: string)
    ensures StartsWith(r, s) && EndsWith(r, '\n')
    ensures |s| <= |r| <= |s| + 1
  {
    if EndsWith(s, '\n') then s else s + "\n"
  }

  /** Length of the line IO#gets reads from the front of `s`: up to and
      including the first newline, or all of `s` when it has none. */
  function LineLength(s: string): (n: nat)
    ensures n <= |s|
    ensures s != [] ==> n > 0
    ensures forall i :: 0 <= i < n - 1 ==> s[i] != '\n'
    ensures n == |s| || s[n - 1] == '\n'
  {
    if s == [] then 0
    else if s[0] == '\n' then 1
    else 1 + LineLength(s[1..])
  }

  /** IO#gets on what is left of a file: `None` at end of file, otherwise the
      line read (with its newline) and the remaining contents. */
  function Gets(s: string): (r: Option<(string, string)>)
    ensures r.None? <==> s == []
    ensures r.Some? ==> |r.value.0| > 0 && r.value.0 + r.value.1 == s
    ensures r.Some? ==> forall i :: 0 <= i < |r.value.0| - 1 ==> r.value.0[i] != '\n'
    ensures r.Some? && r.value.1 != [] ==> EndsWith(r.value.0, '\n')
  {
    if s == [] then None
    else
      var n := LineLength(s);
      assert s[..n] + s[n..] == s;
      Some((s[..n], s[n..]))
  }

  /** String#chomp with the default separator: one trailing "\r\n", "\n" or
      "\r" is removed. */
  function Chomp(s: string): (r: string)
    ensures |r| <= |s| && r == s[..|r|]
    ensures EndsWith(s, '\n') ==> |r| < |s|
    ensures !EndsWith(s, '\n') && !EndsWith(s, '\r') ==> r == s
  {
    if |s| >= 2 && s[|s| - 2..] == "\r\n" then s[..|s| - 2]
    else if EndsWith(s, '\n') || EndsWith(s, '\r') then s[..|s| - 1]
    else s
  }

  /** A line written by IO#puts is read back whole by IO#gets. */
  lemma GetsAfterPuts(s: string, rest: string)
    requires forall i :: 0 <= i < |s| ==> s[i] != '\n'
    ensures Gets(Puts(s) + rest) == Some((s + "\n", rest))
  {
    var f := Puts(s) + rest;
    assert Puts(s) == s + "\n";
    assert f[..|s| + 1] == s + "\n";
    assert f[|s| + 1..] == rest;
    assert forall i :: 0 <= i < |s| ==> f[i] != '\n';
    assert f[|s|] == '\n';
  }

  /** A line read by IO#gets has no newline left once chomped. */
  lemma ChompedLineHasNoNewline(line: string)
    requires forall i :: 0 <= i < |line| - 1 ==> line[i] != '\n'
    ensures forall i :: 0 <= i < |Chomp(line)| ==> Chomp(line)[i] != '\n'
  {
  }

  /** String#chomp takes back the newline IO#puts added, provided the line
      does not itself end with a carriage return. */
  lemma ChompAfterNewline(s: string)
    requires !EndsWith(s, '\r')
    ensures Chomp(s + "\n") == s
  {
    var t := s + "\n";
    if |t| >= 2 {
      assert t[|t| - 2] == s[|s| - 1];
    }
    assert t[..|t| - 1] == s;
  }

  // ---------------------------------------------------------------------
  // File.join
  // ---------------------------------------------------------------------

  /** `s` without its trailing run of '/' characters. */
  function TrimTrailingSlashes(s: string): (r: string)
    ensures |r| <= |s| && r == s[..|r|]
    ensures !EndsWith(r, '/')
    ensures forall i :: |r| <= i < |s| ==> s[i] == '/'
  {
    if EndsWith(s, '/') then TrimTrailingSlashes(s[..|s| - 1]) else s
  }

  /** File.join(a, b): the separator run at the end of `a` is dropped when `b`
      starts with one; otherwise a single '/' is inserted unless `a` already
      ends with one. Separators inside either string are kept. */
  function FileJoin(a: string, b: string): (r: string)
    ensures |b| <= |r| && r[|r| - |b|..] == b
    ensures StartsWith(r, TrimTrailingSlashes(a))
  {
    if |b| > 0 && b[0] == '/' then TrimTrailingSlashes(a) + b
    else if EndsWith(a, '/') then a + b
    else a + "/" + b
  }

  /** A joined path ends with '/' exactly when the second component is empty
      or ends with '/'. */
  lemma FileJoinEndsWithSlash(a: string, b: string)
    ensures EndsWith(FileJoin(a, b), '/') <==> b == [] || EndsWith(b, '/')
  {
    var r := FileJoin(a, b);
    if b != [] {
      assert r[|r| - 1] == b[|b| - 1];
    }
  }

  /** A leading '/' on the second component does not change where File.join
      points, as long as the first has no trailing '/'. */
  lemma FileJoinLeadingSlash(a: string, b: string)
    requires !EndsWith(a, '/')
    requires b == [] || b[0] != '/'
    ensures FileJoin(a, "/" + b) == FileJoin(a, b)
  {
  }

  /** For second components that agree on whether they start with '/',
      File.join is injective. */
  lemma FileJoinInjective(a: string, b1: string, b2: string)
    requires (|b1| > 0 && b1[0] == '/') <==> (|b2| > 0 && b2[0] == '/')
    requires FileJoin(a, b1) == FileJoin(a, b2)
    ensures b1 == b2
  {
    var r1 := FileJoin(a, b1);
    var r2 := FileJoin(a, b2);
    var p := if |b1| > 0 && b1[0] == '/' then TrimTrailingSlashes(a) else if EndsWith(a, '/') then a else a + "/";
    assert r1 == p + b1 && r2 == p + b2;
    assert b1 == r1[|p|..];
  }
}

=== FILE: store.dfy ===
/** The cache store: configuration, the enabled gate, and cache_get_tag,
    cache_put_tag and cache_clear over an abstract file system that maps a
    path to the contents of the file there. */
module Store {
  import opened Results
  import opened RubyText
  import opened Ruby
  import opened Tags
  import opened EntryFormat

  /** Path of a file under the cache root -> its contents. Directories are
      implied by the paths and are not represented. */
  type Files = map<string, string>

  /** The settings the cacher registers on the application. */
  datatype Config = Config(
    cacheEnabled: bool,
    cacheEnabledIn: seq<string>,
    environment: string,
    generateEtags: bool,
    cachePath: string,
    marshal: Marshal)

  /** The settings as Sinatra::Cacher.registered leaves them. */
  function Defaults(environment: string, marshal: Marshal): Config {
    Config(false, ["production"], environment, true, "tmp/cache", marshal)
  }

  /** cache_enabled? */
  predicate Enabled(cfg: Config) {
    cfg.cacheEnabled || cfg.environment in cfg.cacheEnabledIn
  }

  /** cache_enabled forces caching on in every environment; without it,
      caching is on exactly in the environments cache_enabled_in lists. */
  lemma EnabledWhen(cfg: Config)
    ensures cfg.cacheEnabled ==> Enabled(cfg)
    ensures !cfg.cacheEnabled ==>
      (Enabled(cfg) <==> exists i :: 0 <= i < |cfg.cacheEnabledIn| && cfg.cacheEnabledIn[i] == cfg.environment)
  {
  }

  /** Listing more environments never turns caching off. */
  lemma EnabledMonotone(cfg: Config, more: seq<string>)
    ensures Enabled(cfg) ==> Enabled(cfg.(cacheEnabledIn := cfg.cacheEnabledIn + more))
  {
    if cfg.environment in cfg.cacheEnabledIn {
      var i :| 0 <= i < |cfg.cacheEnabledIn| && cfg.cacheEnabledIn[i] == cfg.environment;
      assert (cfg.cacheEnabledIn + more)[i] == cfg.environment;
    }
  }

  /** With the registered defaults, caching is on in production only. */
  lemma DefaultsEnabledOnlyInProduction(environment: string, marshal: Marshal)
    ensures Enabled(Defaults(environment, marshal)) <==> environment == "production"
  {
  }

  /** The content-type line that tells cache_get_tag to Marshal.load. */
  const MarshalSentinel: string := "marshal"

  /** `File.join(settings.cache_path, tag) << '.html'` */
  function EntryPath(cachePath: string, tag: string): (p: string)
    ensures StartsWith(p, TrimTrailingSlashes(cachePath))
    ensures |p| >= 5 && p[|p| - 5..] == ".html"
  {
    FileJoin(cachePath, tag) + ".html"
  }

  /** What cache_get_tag returns for a present entry: content, time and
      content type. */
  datatype Hit = Hit(content: Value, time: int, contentType: Option<string>)

  /** Turns a stored file into the triple cache_get_tag returns. */
  function Decode(marshal: Marshal, file: string): (r: Result<Hit, Exception>)
    ensures r.Ok? ==> r.value.contentType != Some("") && r.value.contentType != Some(MarshalSentinel)
    ensures r.Ok? && r.value.contentType.Some? ==> r.value.content.Str?
    ensures r == Err(MalformedEntry) <==> Parse(file).None?
  {
    match Parse(file)
    case None => Err(MalformedEntry)
    case Some(rec) =>
      if rec.contentType == MarshalSentinel then
        match marshal.load(rec.payload)
        case None => Err(UnreadablePayload)
        case Some(v) => Ok(Hit(v, rec.time, None))
      else if rec.contentType == "" then Ok(Hit(Str(rec.payload), rec.time, None))
      else Ok(Hit(Str(rec.payload), rec.time, Some(rec.contentType)))
  }

  /** cache_get_tag: `Ok(None)` for a nil tag or a missing file, `Err` for a
      file that cannot be read back. It does not consult cache_enabled?. */
  function Get(cfg: Config, files: Files, tag: Option<string>): (r: Result<Option<Hit>, Exception>)
    ensures tag.None? ==> r == Ok(None)
    ensures tag.Some? ==> (r == Ok(None) <==> EntryPath(cfg.cachePath, tag.value) !in files)
    ensures r.Ok? && r.value.Some? ==> r.value.value.contentType != Some("")
  {
    if tag.None? then Ok(None)
    else
      var path := EntryPath(cfg.cachePath, tag.value);
      if path !in files then Ok(None)
      else
        var d := Decode(cfg.marshal, files[path]);
        if d.Err? then Err(d.error) else Ok(Some(d.value))
  }

  /** What cache_put_tag returns (the write time, nil when caching is off)
      together with the files afterwards. */
  datatype Written = Written(time: Option<int>, files: Files)

  /** `f.puts(content_type)` writes an empty line for nil. */
  function ContentTypeLine(contentType: Option<string>): (line: string)
    ensures StorableContentType(contentType) ==> LineSafe(line) && line != MarshalSentinel
    ensures contentType.None? ==> line == ""
  {
    if contentType.Some? then contentType.value else ""
  }

  /** cache_put_tag, with `now` standing for `Time.now.to_i`. A String is
      stored verbatim under its content type; any other value is Marshal
      dumped under the sentinel, and is refused if a content type was given
      (an empty one included, since "" is truthy in Ruby). */
  function Put(cfg: Config, files: Files, tag: string, content: Value, contentType: Option<string>, now: int)
    : (r: Result<Written, Exception>)
    ensures !Enabled(cfg) ==> r == Ok(Written(None, files))
    ensures r.Err? <==> Enabled(cfg) && (EndsWith(tag, '/') || (!content.Str? && contentType.Some?))
    ensures r.Err? ==> r.error == (if EndsWith(tag, '/') then TagEndsWithSlash else NonStringWithContentType)
    ensures Enabled(cfg) && r.Ok? ==>
      && r.value.time == Some(now)
      && r.value.files.Keys == files.Keys + {EntryPath(cfg.cachePath, tag)}
      && (forall p :: p in files && p != EntryPath(cfg.cachePath, tag) ==> r.value.files[p] == files[p])
  {
    if !Enabled(cfg) then Ok(Written(None, files))
    else if EndsWith(tag, '/') then Err(TagEndsWithSlash)
    else if !content.Str? && contentType.Some? then Err(NonStringWithContentType)
    else
      var payload := if content.Str? then content.s else cfg.marshal.dump(content);
      var line := if content.Str? then ContentTypeLine(contentType) else MarshalSentinel;
      var path := EntryPath(cfg.cachePath, tag);
      Ok(Written(Some(now), files[path := Encode(now, line, payload)]))
  }

  /** A content type that reads back as itself: one line, no trailing
      carriage return, and not the Marshal sentinel. */
  predicate StorableContentType(contentType: Option<string>) {
    contentType.Some? ==> LineSafe(contentType.value) && contentType.value != MarshalSentinel
  }

  /** The content type a reader sees: nil and "" both read back as nil. */
  function ReadBack(contentType: Option<string>): Option<string> {
    if contentType == Some("") then None else contentType
  }

  /** A String entry decodes to the String and the content type it was
      written with. */
  lemma DecodeStringEntry(marshal: Marshal, now: int, contentType: Option<string>, payload: string)
    requires StorableContentType(contentType)
    ensures Decode(marshal, Encode(now, ContentTypeLine(contentType), payload))
         == Ok(Hit(Str(payload), now, ReadBack(contentType)))
  {
    ParseEncode(now, ContentTypeLine(contentType), payload);
  }

  /** A Marshal entry decodes to the dumped value, given the round trip. */
  lemma DecodeMarshalEntry(marshal: Marshal, now: int, v: Value)
    requires RoundTrips(marshal)
    ensures Decode(marshal, Encode(now, MarshalSentinel, marshal.dump(v))) == Ok(Hit(v, now, None))
  {
    ParseEncode(now, MarshalSentinel, marshal.dump(v));
    assert marshal.load(marshal.dump(v)) == Some(v);
  }

  /** Put then get: the value, the time put returned and the content type
      come back, for Strings verbatim and for other values through Marshal. */
  lemma PutThenGet(cfg: Config, files: Files, tag: string, content: Value, contentType: Option<string>, now: int)
    requires Enabled(cfg) && (content.Str? || RoundTrips(cfg.marshal))
    requires !EndsWith(tag, '/')
    requires content.Str? || contentType.None?
    requires StorableContentType(contentType)
    ensures Put(cfg, files, tag, content, contentType, now).Ok?
    ensures Get(cfg, Put(cfg, files, tag, content, contentType, now).value.files, Some(tag))
         == Ok(Some(Hit(content, now, ReadBack(contentType))))
  {
    var path := EntryPath(cfg.cachePath, tag);
    var w := Put(cfg, files, tag, content, contentType, now).value;
    if content.Str? {
      assert w.files[path] == Encode(now, ContentTypeLine(contentType), content.s);
      DecodeStringEntry(cfg.marshal, now, contentType, content.s);
    } else {
      assert w.files[path] == Encode(now, MarshalSentinel, cfg.marshal.dump(content));
      DecodeMarshalEntry(cfg.marshal, now, content);
    }
  }

  /** A put changes what any other tag reads only if both name the same file. */
  lemma PutKeepsOtherTags(cfg: Config, files: Files, tag: string, content: Value, contentType: Option<string>, now: int, other: string)
    requires Put(cfg, files, tag, content, contentType, now).Ok?
    requires EntryPath(cfg.cachePath, other) != EntryPath(cfg.cachePath, tag)
    ensures Get(cfg, Put(cfg, files, tag, content, contentType, now).value.files, Some(other))
         == Get(cfg, files, Some(other))
  {
  }

  /** The glob-or-file pattern cache_clear builds: `File.join(cache_path, tag)`. */
  function ClearBase(cachePath: string, tag: string): string {
    FileJoin(cachePath, tag)
  }

  /** Whether `path` lies inside the directory `dir` (which ends in '/')
      under a top-level name that does not start with '.', the names a `*`
      glob matches. */
  predicate VisibleBelow(path: string, dir: string) {
    StartsWith(path, dir) && |path| > |dir| && path[|dir|] != '.'
  }

  /** Whether cache_clear(tag) removes the file at `path`. With a base that
      ends in '/' the `base*` glob matches every non-dot name in that
      directory, and rm_r removes each match with everything below it;
      otherwise the glob is the literal `base.html`, removed as a file or,
      when it is a directory, with its whole subtree. */
  predicate Cleared(cachePath: string, tag: string, path: string) {
    var base := ClearBase(cachePath, tag);
    if EndsWith(base, '/') then VisibleBelow(path, base)
    else path == base + ".html" || StartsWith(path, base + ".html/")
  }

  /** cache_clear. Never raises: a glob that matches nothing removes nothing. */
  function Clear(cfg: Config, files: Files, tag: string): (r: Files)
    ensures forall p :: p in r <==> p in files && !Cleared(cfg.cachePath, tag, p)
    ensures forall p :: p in r ==> r[p] == files[p]
    ensures tag != [] && !EndsWith(tag, '/') ==>
      forall p :: p in r <==> p in files && p != EntryPath(cfg.cachePath, tag)
                              && !StartsWith(p, EntryPath(cfg.cachePath, tag) + "/")
    ensures (tag == [] || EndsWith(tag, '/')) ==>
      forall p :: p in r <==> p in files && !VisibleBelow(p, FileJoin(cfg.cachePath, tag))
  {
    FileJoinEndsWithSlash(cfg.cachePath, tag);
    var r := map p | p in files && !Cleared(cfg.cachePath, tag, p) :: files[p];
    if tag != [] && !EndsWith(tag, '/') then
      assert ClearBase(cfg.cachePath, tag) + ".html/" == EntryPath(cfg.cachePath, tag) + "/";
      r
    else
      r
  }

  /** After clearing a plain tag, reading it misses. */
  lemma ClearThenGetMisses(cfg: Config, files: Files, tag: string)
    requires tag != [] && !EndsWith(tag, '/')
    ensures Get(cfg, Clear(cfg, files, tag), Some(tag)) == Ok(None)
  {
  }

  /** Clearing a plain tag whose `.html` name is a directory removes the
      entries below it too: the tag `tag + ".html/" + below` misses. */
  lemma ClearRemovesSubtree(cfg: Config, files: Files, tag: string, below: string)
    requires tag != [] && !EndsWith(tag, '/')
    ensures Get(cfg, Clear(cfg, files, tag), Some(tag + ".html/" + below)) == Ok(None)
  {
    var deeper := tag + ".html/" + below;
    assert deeper[0] == tag[0];
    assert FileJoin(cfg.cachePath, deeper) == FileJoin(cfg.cachePath, tag) + ".html/" + below;
    var p := EntryPath(cfg.cachePath, deeper);
    var dir := EntryPath(cfg.cachePath, tag) + "/";
    assert p[..|dir|] == dir;
  }

  /** After clearing a prefix, every tag whose file sits under it at a
      non-dot name misses. */
  lemma ClearPrefixThenGetMisses(cfg: Config, files: Files, prefix: string, tag: string)
    requires prefix == [] || EndsWith(prefix, '/')
    requires VisibleBelow(EntryPath(cfg.cachePath, tag), FileJoin(cfg.cachePath, prefix))
    ensures Get(cfg, Clear(cfg, files, prefix), Some(tag)) == Ok(None)
  {
  }

  /** Tags outside the cleared target read exactly as before. */
  lemma ClearKeepsOtherTags(cfg: Config, files: Files, tag: string, other: string)
    requires !Cleared(cfg.cachePath, tag, EntryPath(cfg.cachePath, other))
    ensures Get(cfg, Clear(cfg, files, tag), Some(other)) == Get(cfg, files, Some(other))
  {
  }

  /** Clearing twice is clearing once, and clearing a target with no files
      leaves the store as it was. */
  lemma ClearIdempotent(cfg: Config, files: Files, tag: string)
    ensures Clear(cfg, Clear(cfg, files, tag), tag) == Clear(cfg, files, tag)
    ensures (forall p :: p in files ==> !Cleared(cfg.cachePath, tag, p)) ==> Clear(cfg, files, tag) == files
  {
  }

  /** cache_clear with an empty (or nil) tag globs the whole cache root, so
      every entry cache_put_tag can write at a non-dot name is removed. */
  lemma {:induction false} ClearEmptyTagEmptiesCache(cfg: Config, files: Files, tag: string)
    requires cfg.cachePath != [] && !EndsWith(cfg.cachePath, '/')
    requires VisibleBelow(EntryPath(cfg.cachePath, tag), cfg.cachePath + "/")
    ensures Get(cfg, Clear(cfg, files, ""), Some(tag)) == Ok(None)
  {
    var base := FileJoin(cfg.cachePath, "");
    assert TrimTrailingSlashes(cfg.cachePath) == cfg.cachePath;
    assert base == cfg.cachePath + "/";
  }

  /** The root glob skips dot-files: the entry of the empty tag
      (`<cache_path>/.html`) and of any tag that starts with '.' survive
      cache_clear with an empty tag. */
  lemma {:induction false} ClearEmptyTagKeepsDotEntries(cfg: Config, files: Files, tag: string)
    requires cfg.cachePath != [] && !EndsWith(cfg.cachePath, '/')
    requires tag == [] || tag[0] == '.'
    ensures Get(cfg, Clear(cfg, files, ""), Some(tag)) == Get(cfg, files, Some(tag))
  {
    var base := FileJoin(cfg.cachePath, "");
    assert TrimTrailingSlashes(cfg.cachePath) == cfg.cachePath;
    assert base == cfg.cachePath + "/";
    var p := EntryPath(cfg.cachePath, tag);
    assert p == cfg.cachePath + "/" + tag + ".html";
    assert p[|base|] == '.';
  }

  /** Tags that agree on a leading '/' share an entry file only when they
      are the same tag. */
  lemma EntryPathInjective(cachePath: string, t1: string, t2: string)
    requires (|t1| > 0 && t1[0] == '/') <==> (|t2| > 0 && t2[0] == '/')
    ensures EntryPath(cachePath, t1) == EntryPath(cachePath, t2) ==> t1 == t2
  {
    if EntryPath(cachePath, t1) == EntryPath(cachePath, t2) {
      var j1 := FileJoin(cachePath, t1);
      var j2 := FileJoin(cachePath, t2);
      assert |j1| == |j2|;
      assert j1 == EntryPath(cachePath, t1)[..|j1|];
      assert j2 == EntryPath(cachePath, t2)[..|j2|];
      FileJoinInjective(cachePath, t1, t2);
    }
  }

  /** Under a cache root without a trailing '/', a tag that starts with '/'
      (an auto tag always does, path_info starting with '/') is appended as is. */
  lemma EntryPathOfRootedTag(cachePath: string, tag: string)
    requires !EndsWith(cachePath, '/')
    requires |tag| > 0 && tag[0] == '/'
    ensures EntryPath(cachePath, tag) == cachePath + tag + ".html"
  {
  }

  /** The test suite's file name for the explicit `:index` tag, whatever
      path the route was requested under. */
  lemma ExplicitTagFileName(pathInfo: string)
    ensures EntryPath("tmp/cache", GuessTag(Named("index"), pathInfo).value) == "tmp/cache/index.html"
  {
    assert !EndsWith("tmp/cache", '/');
  }

  /** The test suite's file name for an auto tag on a path without a
      trailing slash, such as /route_auto_tag: the path itself plus `.html`. */
  lemma AutoTagFileName(path: string)
    requires |path| > 0 && path[0] == '/' && !EndsWith(path, '/')
    ensures EntryPath("tmp/cache", GuessTag(Auto, path).value) == "tmp/cache" + path + ".html"
  {
    assert !EndsWith("tmp/cache", '/');
    EntryPathOfRootedTag("tmp/cache", path);
  }

  /** The test suite's file name for an auto tag on a path with a trailing
      slash, such as /route_auto_tag/: `index.html` inside that directory. */
  lemma AutoIndexFileName(path: string)
    requires |path| > 0 && path[0] == '/' && EndsWith(path, '/')
    ensures EntryPath("tmp/cache", GuessTag(Auto, path).value) == "tmp/cache" + path + "index.html"
  {
    var tag := path + "index";
    assert tag[0] == '/';
    AutoTagFileName(tag);
    assert "index" + ".html" == "index.html";
  }
}

=== FILE: tags.dfy ===
/** How a route's cache tag is resolved against the request (cache_guess_tag). */
module Tags {
  import opened Results
  import opened RubyText

  /** The tag argument as cache_route and cache_tag receive it: `nil` (or `false`), the
      auto-derivation markers `true` and `:auto`, or any other object, which
      the cacher only ever uses through `to_s`. */
  datatype TagArg = NoTag | Auto | Named(name: string)

  /** Helpers#cache_guess_tag against the request's path_info. Rack keeps the
      query string out of path_info, so it never reaches the tag. */
  function GuessTag(tag: TagArg, pathInfo: string): (r: Option<string>)
    ensures r.None? <==> tag.NoTag?
    ensures tag.Named? ==> r == Some(tag.name)
    ensures tag.Auto? ==> !EndsWith(r.value, '/')
    ensures tag.Auto? ==>
      r.value == (if pathInfo == [] then "/index"
                  else if EndsWith(pathInfo, '/') then pathInfo + "index"
                  else pathInfo)
  {
    match tag
    case NoTag => None
    case Named(name) => Some(name)
    case Auto =>
      if pathInfo == [] || EndsWith(pathInfo, '/') then Some(FileJoin(pathInfo, "index"))
      else Some(pathInfo)
  }

  /** Converts a resolved tag back into an argument, as the Ruby code does
      when it stores the resolved value where the argument was. */
  function AsTagArg(tag: Option<string>): TagArg {
    if tag.Some? then Named(tag.value) else NoTag
  }

  /** Resolving an already resolved tag again changes nothing, whatever the
      request: this is what makes the second cache_guess_tag in the
      post-phase harmless. */
  lemma GuessTagIdempotent(tag: TagArg, pathInfo: string, laterPath: string)
    ensures GuessTag(AsTagArg(GuessTag(tag, pathInfo)), laterPath) == GuessTag(tag, pathInfo)
  {
  }

  /** An auto tag ignores everything in the request except path_info, and two
      paths give the same tag only when they differ by a trailing "index"
      segment or denote the root. */
  lemma AutoTagInjective(p1: string, p2: string)
    requires GuessTag(Auto, p1) == GuessTag(Auto, p2)
    ensures p1 == p2 || p1 + "index" == p2 || p2 + "index" == p1
      || p1 + "/index" == p2 || p2 + "/index" == p1
      || (p1 == [] && p2 == "/") || (p1 == "/" && p2 == [])
  {
  }
}
